=== FILE: README.md ===
# RegattaApp course and room rules in Dafny

RegattaApp is an Android app for sailing-regatta race committees. A committee
member creates a *room* for a regatta. The form gives the wind direction,
boat class, course type, first-buoy distance and crew count. The app then:

- places the committee boat (RC) at the device position;
- lays out a triangle or trapezoid course of named marks from RC;
- stores the room and its course points in a Firestore collection `rooms`.

Other users join the room and see the marks on a map. Only the room's creator
may drag the marks or send their positions back. A server-side job deletes
rooms older than twelve hours.

This project models the deterministic rules inside that app as pure Dafny
functions over immutable datatypes, and proves properties about them.

| module | file | models |
|---|---|---|
| `RegattaData` | `data.dfy` | the stored records: `RegattaPoint`, `RegattaRoom`, `RoomWithId` |
| `StringOrder` | `string_order.dfy` | Kotlin string comparison (a total order) and ASCII lower-casing |
| `StableSort` | `stable_sort.dfy` | `sortedBy`: a stable sort, proved to give a sorted permutation |
| `FormInput` | `form_input.dfy` | the digit-only field filters, `toIntOrNull`, `isBlank` and the submit guard |
| `Course` | `course.dfy` | course generation and a declarative layout (`CoursePlan`) that it is proved to follow |
| `Repository` | `repository.dfy` | `createRoom`, `joinRoom`, snapshot parsing, `updateCoursePoint`, `getAllRooms` |
| `CreateScreen` | `create_screen.dfy` | the create button handler, from form to course-points write |
| `RoomViewModel` | `room_view_model.dfy` | the view model's state updates, as an event fold |
| `MapMarkers` | `map_markers.dfy` | marker icons, the marker rebuild, the Update payload and creator-only editing |
| `HomeList` | `home.dfy` | the room list's display order and per-row route |
| `Cleanup` | `cleanup.dfy` | the hourly stale-room cleanup |

**Geometry.** The mark positions come from `computeOffset(lat, lng, distance, bearing)`,
which is spherical trigonometry on doubles. Every course function therefore
takes the offset as a parameter `offset: OffsetFn`, and nothing is assumed
about it. The theorems hold for every offset function: which mark each offset
starts from, its distance and its bearing, the mark names and their order.

**Reference layout.** `Course.CoursePlan` describes a course as data: a list
of legs, each with a mark name, an origin, a distance and a bearing. The
origin is an earlier mark or the midpoint of two earlier marks.
`Course.Realize` interprets such a plan with any offset function.
`Course.GenerateCourseFollowsPlan` proves that the step-by-step model of
the button handler's course generation, `Course.GenerateCourse`, equals the realized plan.

**Firestore.** Firestore, Firebase Auth and the device are not modelled as
services. Their results are inputs:

- the signed-in uid as an `Option`;
- the add outcome;
- whether a transaction commits;
- the document's field map, as a small dynamic value type `Repository.Dyn`;
- the `toObject` decoding;
- the device location, and whether the task that reads it fails.

All numbers that are doubles in the app are Dafny `real`s. Millisecond times
are `int`s.

## Model

| member | source | states |
|---|---|---|
| `StringOrder.LexLeReflexive` | app/src/main/java/com/example/regattaapp/RoomRepository.kt:95 | every name compares less-or-equal to itself |
| `StringOrder.LexLeTotal` | app/src/main/java/com/example/regattaapp/RoomRepository.kt:95 | any two names are comparable, so sorting by name is well defined |
| `StringOrder.LexLeAntisymmetric` | app/src/main/java/com/example/regattaapp/RoomRepository.kt:95 | two names each less-or-equal to the other are the same name |
| `StringOrder.LexLeTransitive` | app/src/main/java/com/example/regattaapp/RoomRepository.kt:95 | the name order is transitive |
| `StringOrder.Lowercase` | app/src/main/java/com/example/regattaapp/RoomRepository.kt:95 | the sort key keeps the name's length, turns each upper-case ASCII letter into its lower-case letter (32 code points on), so none is left, and keeps every other character |
| `StableSort.SortBy` | app/src/main/java/com/example/regattaapp/RoomRepository.kt:95 | `sortedBy` returns a permutation (same multiset) of its input, in non-decreasing key order |
| `StableSort.SortByStable` | app/src/main/java/com/example/regattaapp/RoomRepository.kt:95 | for every key, the elements with that key appear in the output in their input order (stability) |
| `StableSort.SortByStableAll` | app/src/main/java/com/example/regattaapp/ui/screen/home/HomeScreen.kt:62 | stability for all keys at once |
| `FormInput.FilterEdit` | app/src/main/java/com/example/regattaapp/ui/screen/create/CreateRoomScreen.kt:98-100 | an all-digit edit (the empty string included) is accepted; an edit with any non-digit is rejected and the old text kept |
| `FormInput.FieldStaysDigits` | app/src/main/java/com/example/regattaapp/ui/screen/create/CreateRoomScreen.kt:165-167 | after any sequence of edits from an empty field, a numeric field holds only digits |
| `FormInput.ToIntOrNull` | app/src/main/java/com/example/regattaapp/ui/screen/create/CreateRoomScreen.kt:189-191 | a parsed value is a 32-bit Int from non-empty text; a digit string parses iff its decimal value is at most 2147483647, and then to that value |
| `FormInput.DecimalStringValue` | app/src/main/java/com/example/regattaapp/ui/screen/create/CreateRoomScreen.kt:189-191 | the decimal spelling of n is a digit string whose value is n |
| `FormInput.ParseDecimalRoundTrip` | app/src/main/java/com/example/regattaapp/ui/screen/create/CreateRoomScreen.kt:189-191 | parsing the decimal spelling of any n up to Int.MAX_VALUE gives back n |
| `FormInput.Validate` | app/src/main/java/com/example/regattaapp/ui/screen/create/CreateRoomScreen.kt:193-198 | submission passes iff the name is non-blank, all three numbers parse, wind is in 0..360, distance in 200..5000 and crew ≥ 1; on success the numbers are the parsed ones |
| `Course.KRem` | app/src/main/java/com/example/regattaapp/ui/screen/create/CreateRoomScreen.kt:222 | Kotlin `%` agrees with the mathematical remainder in [0, b) for non-negative operands and is in (-b, 0] for negative ones |
| `Course.BoatLength` | app/src/main/java/com/example/regattaapp/ui/screen/create/CreateRoomScreen.kt:224-229 | Optimist is 2.3 m, Cadet 3.2 m and ILCA 4.2 m; any other class gets 3.0 m; so the length always lies in [2.3, 4.2] |
| `Course.StartDistanceBounds` | app/src/main/java/com/example/regattaapp/ui/screen/create/CreateRoomScreen.kt:231 | for crew ≥ 1 the start-line distance is between 3.45·crew and 6.3·crew metres, hence at least 3.45 |
| `Course.CoursePlan` | app/src/main/java/com/example/regattaapp/ui/screen/create/CreateRoomScreen.kt:240-266 | the layout names RC, Start, 1, 2, 3 for "trójkąt" and RC, Start, 1, 2, 3, 4 otherwise. Every leg starts from a mark placed before it. Valid wind keeps every bearing in [0, 360), except buoy 1 which may be 360. Valid distance and crew make every offset distance positive |
| `Course.TriangleLegsSound` | app/src/main/java/com/example/regattaapp/ui/screen/create/CreateRoomScreen.kt:240-242 | the triangle legs (buoy 1 from the RC/Start midpoint, 2 from 1, 3 from 2) are well ordered, in range and of positive length |
| `Course.TrapezoidLegsSound` | app/src/main/java/com/example/regattaapp/ui/screen/create/CreateRoomScreen.kt:253-257 | the trapezoid legs (2 and 4 from 1, 3 from 4, sides d/1.4) are well ordered, in range and of positive length |
| `Course.Realize` | app/src/main/java/com/example/regattaapp/ui/screen/create/CreateRoomScreen.kt:244-266 | a realized plan lists one point per mark, in the plan's order |
| `Course.GenerateCourse` | app/src/main/java/com/example/regattaapp/ui/screen/create/CreateRoomScreen.kt:222-267 | the generated points are named RC, Start, 1, 2, 3 (and 4 for a trapezoid) in that order, and the first is RC at the committee position |
| `Course.TriangleFollowsPlan` | app/src/main/java/com/example/regattaapp/ui/screen/create/CreateRoomScreen.kt:244-251 | for every offset function the triangle points are exactly the realized triangle plan |
| `Course.TrapezoidRun` | app/src/main/java/com/example/regattaapp/ui/screen/create/CreateRoomScreen.kt:253-257 | running the trapezoid legs places buoy 2 and 4 from buoy 1 and buoy 3 from buoy 4 |
| `Course.TrapezoidFollowsPlan` | app/src/main/java/com/example/regattaapp/ui/screen/create/CreateRoomScreen.kt:252-266 | for every offset function the trapezoid points are the realized trapezoid plan; the unused triangle buoys do not leak in |
| `Course.GenerateCourseFollowsPlan` | app/src/main/java/com/example/regattaapp/ui/screen/create/CreateRoomScreen.kt:222-267 | for every offset function and every input, the generated course is the realized `CoursePlan` |
| `Repository.CreateRoom` | app/src/main/java/com/example/regattaapp/RoomRepository.kt:28-52 | no user means no id and nothing written; an id comes back iff a user is signed in and the add succeeds, and it is the new document's id; the room written has users = [uid], no course points, the request's fields verbatim, the start location and the creation time |
| `Repository.StringsOf` | app/src/main/java/com/example/regattaapp/RoomRepository.kt:62 | a non-list users field reads as the empty list; a list reads as its string entries, in order and with repeats, exactly as the `StringItems` filter gives them |
| `Repository.StringItems` | app/src/main/java/com/example/regattaapp/RoomRepository.kt:62 | `filterIsInstance<String>` keeps a value iff it is a string entry of the list |
| `Repository.StringItemsAppend` | app/src/main/java/com/example/regattaapp/RoomRepository.kt:62 | the filter is element-wise and keeps order: filtering a concatenation concatenates the filtered parts |
| `Repository.StringItemsSingle` | app/src/main/java/com/example/regattaapp/RoomRepository.kt:62 | a single entry is kept iff it is a string, as that string |
| `Repository.StringItemsOfStrings` | app/src/main/java/com/example/regattaapp/RoomRepository.kt:62 | filtering a list of strings for strings returns it unchanged |
| `Repository.UsersRoundTrip` | app/src/main/java/com/example/regattaapp/RoomRepository.kt:62-65 | a users list that was written reads back as the same list |
| `Repository.JoinRoom` | app/src/main/java/com/example/regattaapp/RoomRepository.kt:55-73 | no user, or a missing document, means failure without a write; a uid already present means no write, and success iff the transaction commits; for an existing document without the uid, a committing transaction writes the old string entries in order followed by the uid and succeeds, and any write implies success |
| `Repository.JoinTwiceWritesOnce` | app/src/main/java/com/example/regattaapp/RoomRepository.kt:62-66 | joining again after a join wrote the users list writes nothing more |
| `Repository.ParsePoint` | app/src/main/java/com/example/regattaapp/RoomRepository.kt:134-138 | a string name is kept and a Long or Double latitude/longitude is kept as its numeric value; a missing or mistyped name becomes "", a missing or non-numeric coordinate becomes 0.0 |
| `Repository.ParsePoints` | app/src/main/java/com/example/regattaapp/RoomRepository.kt:130-146 | parsing never yields more points than list elements |
| `Repository.CoursePointsOf` | app/src/main/java/com/example/regattaapp/RoomRepository.kt:130-146 | a coursePoints field that is absent or not a list yields no points; a list yields the element-wise parse `ParsePoints` of its elements |
| `Repository.ParsePointsAppend` | app/src/main/java/com/example/regattaapp/RoomRepository.kt:131-145 | parsing is element-wise and keeps order: parsing a concatenation concatenates the parses |
| `Repository.ParsePointsSingle` | app/src/main/java/com/example/regattaapp/RoomRepository.kt:131-145 | a single map element parses to exactly `ParsePoint` of its entries, defaults included; any other element parses to nothing |
| `Repository.ParsePointsDropsNonMaps` | app/src/main/java/com/example/regattaapp/RoomRepository.kt:143-145 | a list with no map elements parses to no points |
| `Repository.PointsValue` | app/src/main/java/com/example/regattaapp/RoomRepository.kt:98-101 | writing points stores one list element per point |
| `Repository.PointsParseBack` | app/src/main/java/com/example/regattaapp/RoomRepository.kt:130-146 | points as written by `addCoursePoints` parse back to exactly the same points |
| `Repository.CoursePointsRoundTrip` | app/src/main/java/com/example/regattaapp/RoomRepository.kt:130-146 | a document whose coursePoints field holds written points yields those points |
| `Repository.OnSnapshot` | app/src/main/java/com/example/regattaapp/RoomRepository.kt:118-163 | the observer gets a room iff the listen succeeded, the document exists, has data and decodes; that room is the decoded one with the tolerantly parsed course points |
| `Repository.MovePoint` | app/src/main/java/com/example/regattaapp/RoomRepository.kt:176-178 | same length, names and order; every point named `pointName` moves to the new lat/lng; every other point is unchanged |
| `Repository.MovePointNoMatch` | app/src/main/java/com/example/regattaapp/RoomRepository.kt:176-178 | when no point has the name, the list is unchanged |
| `Repository.MovePointIdempotent` | app/src/main/java/com/example/regattaapp/RoomRepository.kt:176-178 | moving the same point to the same place twice equals moving it once |
| `Repository.UpdateCoursePoint` | app/src/main/java/com/example/regattaapp/RoomRepository.kt:172-181 | nothing is written iff the room cannot be read; otherwise the write is the room's points with the named ones moved |
| `Repository.DecodedRooms` | app/src/main/java/com/example/regattaapp/RoomRepository.kt:91-94 | a room is listed iff its document decodes, paired with that document's id |
| `Repository.DecodedRoomsAppend` | app/src/main/java/com/example/regattaapp/RoomRepository.kt:91-94 | `mapNotNull` is element-wise and keeps fetch order: the rooms of a concatenation are the rooms of the parts, concatenated |
| `Repository.DecodedRoomsSingle` | app/src/main/java/com/example/regattaapp/RoomRepository.kt:91-94 | one document contributes exactly its decoded room under its id, or nothing when it does not decode |
| `Repository.GetAllRooms` | app/src/main/java/com/example/regattaapp/RoomRepository.kt:86-96 | the list is a permutation of the decodable rooms, sorted by lower-cased name, with equal lower-cased names in fetch order |
| `CreateScreen.Submit` | app/src/main/java/com/example/regattaapp/ui/screen/create/CreateRoomScreen.kt:189-269 | a room is requested iff the form validates, a location permission is granted and the last-location task does not fail. The request carries the parsed values and the RC position, or (0,0) without a location. Points are written iff an id came back, to that id, with the right mark names and RC at the room's start location |
| `CreateScreen.SubmittedCourseIsSound` | app/src/main/java/com/example/regattaapp/ui/screen/create/CreateRoomScreen.kt:209-267 | the written points are the realized course layout for the validated numbers, with every bearing in range and every distance positive |
| `CreateScreen.StartLocationMatchesRc` | app/src/main/java/com/example/regattaapp/ui/screen/create/CreateRoomScreen.kt:209-236 | the room's stored start location is the RC position used for the course |
| `RoomViewModel.AfterCreate` | app/src/main/java/com/example/regattaapp/viewmodel/RoomViewModel.kt:36-52 | roomId becomes the returned id even when it is null; observation starts only for a non-null id |
| `RoomViewModel.AfterJoin` | app/src/main/java/com/example/regattaapp/viewmodel/RoomViewModel.kt:55-62 | only a successful join sets roomId and starts observing; a failed one changes nothing |
| `RoomViewModel.DeleteCurrentRoom` | app/src/main/java/com/example/regattaapp/viewmodel/RoomViewModel.kt:64-67 | with no roomId the result is false and the repository is not called; otherwise the repository deletes roomId and its answer is returned |
| `RoomViewModel.AfterLoad` | app/src/main/java/com/example/regattaapp/viewmodel/RoomViewModel.kt:69-78 | a failed load leaves the state unchanged; a successful one replaces allRooms |
| `RoomViewModel.AfterObserved` | app/src/main/java/com/example/regattaapp/viewmodel/RoomViewModel.kt:86-95 | a null room is ignored; a non-null one becomes currentRoom |
| `RoomViewModel.RunSnoc` | app/src/main/java/com/example/regattaapp/viewmodel/RoomViewModel.kt:14-104 | applying one more event to a history is the same as stepping the state once more |
| `RoomViewModel.CurrentRoomIsLastObserved` | app/src/main/java/com/example/regattaapp/viewmodel/RoomViewModel.kt:86-95 | after any history, currentRoom is the last non-null room the observer delivered |
| `RoomViewModel.AllRoomsIsLastLoaded` | app/src/main/java/com/example/regattaapp/viewmodel/RoomViewModel.kt:69-78 | after any history, allRooms is the result of the last successful load |
| `RoomViewModel.ObservedOnlyAfterSuccess` | app/src/main/java/com/example/regattaapp/viewmodel/RoomViewModel.kt:46-61 | a room is observed only after a create that returned its id or a successful join of it |
| `RoomViewModel.ObservedFromInitial` | app/src/main/java/com/example/regattaapp/viewmodel/RoomViewModel.kt:46-61 | starting from a new view model, every observed room id was returned by a create or joined successfully |
| `RoomViewModel.ReadyOnlyWithPoints` | app/src/main/java/com/example/regattaapp/viewmodel/RoomViewModel.kt:97-103 | `waitForCoursePoints` fires only for a non-null room with course points, so not for a freshly created room |
| `MapMarkers.IconFor` | app/src/main/java/com/example/regattaapp/ui/screen/map/MapScreen.kt:85-93 | the lookup is total, and a name gets `buoy_default` iff it is not RC, Start, 1, 2, 3 or 4 |
| `MapMarkers.NamedIconsDistinct` | app/src/main/java/com/example/regattaapp/ui/screen/map/MapScreen.kt:85-93 | the six named marks each get their own drawable |
| `MapMarkers.MarkerFor` | app/src/main/java/com/example/regattaapp/ui/screen/map/MapScreen.kt:80-96 | a point's marker carries its name, its position and its icon, and is draggable iff editing is allowed |
| `MapMarkers.MarkerMapKeys` | app/src/main/java/com/example/regattaapp/ui/screen/map/MapScreen.kt:79-118 | after the rebuild the marker map's keys are exactly the names of the current points |
| `MapMarkers.MarkerMapLaterWins` | app/src/main/java/com/example/regattaapp/ui/screen/map/MapScreen.kt:117 | points with duplicate names collapse to one entry, the last such point's marker |
| `MapMarkers.CanEditOnlyCreator` | app/src/main/java/com/example/regattaapp/ui/screen/map/MapScreen.kt:95 | with a room, editing is allowed iff the signed-in user is its creator; with no room, iff no user is signed in |
| `MapMarkers.BuildMarkers` | app/src/main/java/com/example/regattaapp/ui/screen/map/MapScreen.kt:72-118 | the overlays are the user marker followed by one marker per point in order, and the marker map is the name-keyed map of those markers |
| `MapMarkers.Redraw` | app/src/main/java/com/example/regattaapp/ui/screen/map/MapScreen.kt:61-121 | the redraw is skipped, leaving the map as it was, when the map view, location or room is missing; otherwise it centres on the location and rebuilds the overlays and the marker map from scratch |
| `MapMarkers.UpdatePayload` | app/src/main/java/com/example/regattaapp/ui/screen/map/MapScreen.kt:180-182 | Update sends exactly one point per marker-map entry, under its key, at that marker's position, with no name twice |
| `MapMarkers.PressUpdate` | app/src/main/java/com/example/regattaapp/ui/screen/map/MapScreen.kt:159-189 | the Update button sends something iff the current user may edit, and then exactly the marker map's payload |
| `MapMarkers.PayloadCoversNames` | app/src/main/java/com/example/regattaapp/ui/screen/map/MapScreen.kt:180-182 | after a redraw the Update payload names exactly the distinct names of the course points |
| `MapMarkers.IconSide` | app/src/main/java/com/example/regattaapp/ui/screen/map/MapScreen.kt:242 | the icon side is at least 1 pixel and equals the computed size whenever that is positive |
| `HomeList.DisplayOrder` | app/src/main/java/com/example/regattaapp/ui/screen/home/HomeScreen.kt:62 | the displayed rooms are a permutation of the loaded ones, in non-decreasing raw (case-sensitive) name order, with equal names keeping their incoming order |
| `HomeList.RouteCarriesId` | app/src/main/java/com/example/regattaapp/ui/screen/home/HomeScreen.kt:79 | a row's route is "map/" followed by exactly that room's id |
| `HomeList.RouteInjective` | app/src/main/java/com/example/regattaapp/ui/screen/home/HomeScreen.kt:79 | two rows with the same route belong to rooms with the same id |
| `Cleanup.Cutoff` | functions/index.js:9-11 | the cut-off is exactly 12·60·60·1000 ms before the run |
| `Cleanup.SelectStale` | functions/index.js:14-16 | a room is selected iff it has a creation time strictly before the cut-off; each stale room appears as many times as it is stored, so once per document |
| `Cleanup.RunCleanup` | functions/index.js:14-25 | a rejected query issues no deletion and logs nothing; otherwise exactly one deletion is issued per selected document, in query order; the count line is logged iff the query and every deletion succeeded, and then it equals the number of deletions issued |
| `Cleanup.IssuedIndependentOfOutcome` | functions/index.js:18-22 | which deletions are issued does not depend on whether any of them fails |
| `Cleanup.OnlyStaleDeleted` | functions/index.js:14-22 | every deleted id belongs to a room created strictly more than twelve hours before the run |
| `Cleanup.BoundaryKept` | functions/index.js:15 | a room exactly twelve hours old, or one without a creation time, is kept; one a millisecond older is deleted |

## Left out

- `computeOffset` (app/src/main/java/com/example/regattaapp/utils/GeoUtils.kt:5) is spherical trigonometry on doubles. It is an arbitrary function parameter here, so no property of its results, such as actual distances on the globe, is stated. `calculateDestination` in the same file is unused.
- Floating point: coordinates, lengths and distances are exact reals. Rounding of `Double` arithmetic and `toDouble` conversions is not modelled.
- FormInput.IsDigit accepts the ASCII digits only. Kotlin's `Char.isDigit` also accepts other Unicode decimal digits, which `toIntOrNull` would then parse.
- FormInput.ToIntOrNull: the sign and overflow branches are modelled, but the contract only pins down unsigned digit strings. Those are the only strings the digit filters let into the fields.
- StringOrder.Lowercase lower-cases ASCII letters only. Kotlin's `lowercase()` uses the full Unicode mapping.
- StringOrder.LexLe orders by Unicode code point. Kotlin compares UTF-16 code units, which differs only for characters outside the Basic Multilingual Plane.
- The trapezoid uses the `/1.4` side length and the bearings at CreateRoomScreen.kt:253-257. This is the only trapezoid layout in the code, and the model follows the code. In that branch the code also computes the triangle buoys 2 and 3 and then discards them. `Course.GenerateCourse` computes them too, and `Course.TrapezoidFollowsPlan` shows they do not reach the result.
- The location permission check and `lastLocation`/`getCurrentLocation` become inputs: a permission flag and an optional location. The UI state of the dropdowns and text fields is not modelled beyond the field filters.
- Firestore, Firebase Auth, transactions, snapshot listeners and coroutines become inputs: the uid, the add outcome, the commit flag, the document data and the decoded room; for the cleanup job, whether the query and each deletion succeed. Concurrency between listeners and writes is not modelled.
- `toObject(RegattaRoom::class.java)` decoding is an input (`Option<RegattaRoom>`). The tolerant course-point parsing that replaces its points is modelled.
- `Timestamp.now()` is an input in integer milliseconds. Sub-millisecond precision is dropped.
- `deleteRoom`, `addCoursePoints`, `getRoom` and `getRoomWithListener` in RoomRepository.kt are thin wrappers whose only logic is catching and logging failures. Their outcomes appear as inputs: `DeleteCall.result`, the `PointsWrite` of `CreateScreen.Submit`, and the room given to `RoomViewModel.Ready`.
- `resetCourse`, `updateCourseFromMap` and `updateSingleMarkerPosition` are called from MapScreen.kt, but the code defining them is not part of this model. Their effects are not modelled. Only the payload passed to `updateCourseFromMap` is modelled.
- The marker drag listener, `metersToPixels` and bitmap scaling are Android graphics and float projection. Only the `coerceAtLeast(1)` floor of the icon size is modelled, and the `toInt()` truncation is an input.
- Navigation, the join screen, the nav graph, app start-up and build configuration are library glue.
- The definition of `RoomWithId` is not part of this model. It is modelled as the pair of a document id and a room.
- Log output is left out, including the cleanup job's per-room lines. For the summary line, only whether it is reached and the count it logs are modelled.
- The Firestore query `createdAt < twelveHoursAgo` matches only timestamp values. A missing or non-timestamp `createdAt` is modelled as `None`, which never matches.

=== FILE: cleanup.dfy ===
/** The hourly server-side cleanup: every room whose creation time is more
    than twelve hours before the run is deleted, and the count is logged. */
module Cleanup {
  import opened RegattaData

  /** Twelve hours in milliseconds, `12 * 60 * 60 * 1000`. */
  const TwelveHoursMillis: int := 43200000

  /** The cut-off instant of a run started at `now` (both in milliseconds). */
  function Cutoff(now: int): (c: int)
    ensures c < now && now - c == 12 * 60 * 60 * 1000
  {
    now - TwelveHoursMillis
  }

  /** A stored room as the query sees it: its document id and its
      `createdAt` timestamp in milliseconds, absent when the field is missing
      or not a timestamp. */
  datatype StoredRoom = StoredRoom(id: string, createdAt: Option<int>)

  /** The query `createdAt < cutoff`: rooms without a timestamp never match. */
  predicate IsStale(r: StoredRoom, cutoff: int)
  {
    r.createdAt.Some? && r.createdAt.value < cutoff
  }

  /** The query result, in the order the query returns the documents: each
      stale room as often as it is stored, and no other room. */
  function SelectStale(rooms: seq<StoredRoom>, cutoff: int): (r: seq<StoredRoom>)
    ensures |r| <= |rooms|
    ensures forall x :: x in r <==> x in rooms && IsStale(x, cutoff)
    ensures forall x :: multiset(r)[x] == if IsStale(x, cutoff) then multiset(rooms)[x] else 0
  {
    if |rooms| == 0 then []
    else
      assert rooms == [rooms[0]] + rooms[1..];
      if IsStale(rooms[0], cutoff) then [rooms[0]] + SelectStale(rooms[1..], cutoff)
      else SelectStale(rooms[1..], cutoff)
  }

  /** What a run did: the ids whose deletion it issued, one per selected
      document, and the count in the final log line. The count is logged only
      when the query and every deletion succeeded: a rejected query ends the
      run before any deletion, and one failed deletion rejects `Promise.all`
      and ends the run before the log line. */
  datatype CleanupRun = CleanupRun(deleted: seq<string>, loggedCount: Option<int>)

  /** `querySucceeds` is the outcome of the store query, and
      `deleteSucceeds(id)` that of the store's delete of document `id`. */
  function RunCleanup(rooms: seq<StoredRoom>, now: int, querySucceeds: bool, deleteSucceeds: string -> bool): (run: CleanupRun)
    ensures !querySucceeds ==> run.deleted == [] && run.loggedCount.None?
    ensures querySucceeds ==> forall r :: r in rooms && IsStale(r, Cutoff(now)) ==> r.id in run.deleted
    ensures querySucceeds ==>
      var stale := SelectStale(rooms, Cutoff(now));
      && |run.deleted| == |stale|
      && forall i :: 0 <= i < |stale| ==> run.deleted[i] == stale[i].id
    ensures run.loggedCount.Some? <==>
      querySucceeds && forall i :: 0 <= i < |run.deleted| ==> deleteSucceeds(run.deleted[i])
    ensures run.loggedCount.Some? ==> run.loggedCount.value == |run.deleted|
  {
    if !querySucceeds then CleanupRun([], None)
    else
      var stale := SelectStale(rooms, Cutoff(now));
      var ids := seq(|stale|, i requires 0 <= i < |stale| => stale[i].id);
      assert forall r :: r in stale ==> r.id in ids by {
        forall r | r in stale
          ensures r.id in ids
        {
          var i :| 0 <= i < |stale| && stale[i] == r;
          assert ids[i] == r.id;
        }
      }
      var allSucceeded := forall i :: 0 <= i < |ids| ==> deleteSucceeds(ids[i]);
      CleanupRun(ids, if allSucceeded then Some(|ids|) else None)
  }

  /** Only stale rooms are deleted: a deleted id belongs to a room created
      strictly more than twelve hours before the run. */
  lemma {:induction false} OnlyStaleDeleted(rooms: seq<StoredRoom>, now: int, querySucceeds: bool,
                                            deleteSucceeds: string -> bool, id: string)
    requires id in RunCleanup(rooms, now, querySucceeds, deleteSucceeds).deleted
    ensures exists r :: r in rooms && r.id == id && r.createdAt.Some? && r.createdAt.value < now - TwelveHoursMillis
  {
    var stale := SelectStale(rooms, Cutoff(now));
    var deleted := RunCleanup(rooms, now, querySucceeds, deleteSucceeds).deleted;
    var i :| 0 <= i < |deleted| && deleted[i] == id;
    assert stale[i] in rooms && IsStale(stale[i], Cutoff(now));
  }

  /** Which deletions are issued does not depend on their outcomes; only the
      final log line does. */
  lemma IssuedIndependentOfOutcome(rooms: seq<StoredRoom>, now: int, querySucceeds: bool,
                                   ok1: string -> bool, ok2: string -> bool)
    ensures RunCleanup(rooms, now, querySucceeds, ok1).deleted == RunCleanup(rooms, now, querySucceeds, ok2).deleted
  {
  }

  /** The boundary: a room exactly twelve hours old, or without a creation
      time, survives the run. */
  lemma BoundaryKept(now: int)
    ensures !IsStale(StoredRoom("", Some(now - TwelveHoursMillis)), Cutoff(now))
    ensures !IsStale(StoredRoom("", None), Cutoff(now))
    ensures IsStale(StoredRoom("", Some(now - TwelveHoursMillis - 1)), Cutoff(now))
  {
  }
}

=== FILE: course.dfy ===
/** The course generator run when a room is created: the start-line bearing
    and length, the RC/Start midpoint and the chain of offsets that places
    buoys 1..4 for the triangle and trapezoid layouts.

    The geodesic offset itself (spherical trigonometry on doubles) is not
    modelled: every function here takes it as a parameter `offset` and
    nothing is assumed about it, so each property below holds for whatever
    the offset computes. */
module Course {
  import opened RegattaData

  /** `computeOffset(lat, lng, distanceMeters, bearingDegrees)`. */
  type OffsetFn = (Coord, real, real) -> Coord

  /** Kotlin's `Int` remainder: it truncates toward zero, so the result has
      the sign of the dividend. */
  function KRem(a: int, b: int): (r: int)
    requires b > 0
    ensures a >= 0 ==> r == a % b && 0 <= r < b
    ensures a < 0 ==> -b < r <= 0
  {
    if a >= 0 then a % b else -((-a) % b)
  }

  /** The course type whose name selects the triangle layout. The form's
      other choice, "trapez", and every other name are laid out as a
      trapezoid. */
  const Triangle: string := "trójkąt"

  /** Boat length in metres by class, with 3.0 for any other class. */
  function BoatLength(boatClass: string): (len: real)
    ensures 2.3 <= len <= 4.2
    ensures boatClass == "Optimist" ==> len == 2.3
    ensures boatClass == "Cadet" ==> len == 3.2
    ensures boatClass == "ILCA" ==> len == 4.2
    ensures boatClass !in {"Optimist", "Cadet", "ILCA"} ==> len == 3.0
  {
    match boatClass
    case "Optimist" => 2.3
    case "Cadet" => 3.2
    case "ILCA" => 4.2
    case _ => 3.0
  }

  /** Length of the start line: one and a half boat lengths per crew. */
  function StartDistance(boatClass: string, crew: int): real
  {
    BoatLength(boatClass) * 1.5 * crew as real
  }

  /** For a valid crew count the start line is between 3.45 and 6.3 metres
      per crew, so never shorter than 3.45 metres. */
  lemma StartDistanceBounds(boatClass: string, crew: int)
    ensures crew >= 1 ==> 3.45 * crew as real <= StartDistance(boatClass, crew) <= 6.3 * crew as real
    ensures crew >= 1 ==> StartDistance(boatClass, crew) >= 3.45
  {
    var len := BoatLength(boatClass);
    assert len * 1.5 >= 3.45 && len * 1.5 <= 6.3;
  }

  /** The point a derived mark is offset from. */
  datatype Origin =
    | AtMark(mark: string)
    | MidpointOf(first: string, second: string)

  /** One call of the offset: the mark it produces, where it starts, how far
      and on which bearing. */
  datatype Leg = Leg(name: string, from: Origin, distance: real, bearing: int)

  /** A course layout: the offset calls in the order they are made, then the
      order in which the marks are listed. RC is placed at the committee
      position and needs no leg. */
  datatype Plan = Plan(legs: seq<Leg>, order: seq<string>)

  const RcName: string := "RC"
  const StartName: string := "Start"

  function TriangleOrder(): seq<string> { [RcName, StartName, "1", "2", "3"] }
  function TrapezoidOrder(): seq<string> { [RcName, StartName, "1", "2", "3", "4"] }

  /** Marks available before leg `i` runs: RC and the marks of the earlier legs. */
  predicate Known(legs: seq<Leg>, i: int, name: string)
    requires 0 <= i <= |legs|
  {
    name == RcName || exists j :: 0 <= j < i && legs[j].name == name
  }

  predicate OriginKnown(legs: seq<Leg>, i: int, o: Origin)
    requires 0 <= i <= |legs|
  {
    match o
    case AtMark(m) => Known(legs, i, m)
    case MidpointOf(a, b) => Known(legs, i, a) && Known(legs, i, b)
  }

  /** Every leg starts from marks that already exist, no mark is produced
      twice, and every listed mark is produced. */
  predicate WellFormed(p: Plan)
  {
    && (forall i :: 0 <= i < |p.legs| ==> OriginKnown(p.legs, i, p.legs[i].from))
    && (forall i :: 0 <= i < |p.legs| ==> p.legs[i].name != RcName)
    && (forall i, j :: 0 <= i < j < |p.legs| ==> p.legs[i].name != p.legs[j].name)
    && (forall k :: 0 <= k < |p.order| ==> Known(p.legs, |p.legs|, p.order[k]))
  }

  /** Every bearing handed to the offset is in [0, 360), except buoy 1's,
      which is the raw wind direction and may be 360. */
  predicate BearingsInRange(legs: seq<Leg>)
  {
    forall i :: 0 <= i < |legs| ==>
      0 <= legs[i].bearing <= 360 && (legs[i].name != "1" ==> legs[i].bearing < 360)
  }

  /** Every distance handed to the offset is positive. */
  predicate DistancesPositive(legs: seq<Leg>)
  {
    forall i :: 0 <= i < |legs| ==> legs[i].distance > 0.0
  }

  /** The layout the create-room handler computes for the given (validated)
      numbers. In the trapezoid layout the triangle's buoys 2 and 3 are still
      computed by the handler but are discarded, so they are not part of it. */
  function CoursePlan(wind: int, boatClass: string, courseType: string, buoyDistance: int, crew: int): (p: Plan)
    ensures WellFormed(p)
    ensures p.order == if courseType == Triangle then TriangleOrder() else TrapezoidOrder()
    ensures |p.legs| == |p.order| - 1
    ensures 0 <= wind <= 360 ==> BearingsInRange(p.legs)
    ensures buoyDistance >= 200 && crew >= 1 ==> DistancesPositive(p.legs)
  {
    if courseType == Triangle then
      TriangleLegsSound(wind, boatClass, buoyDistance, crew);
      Plan(TriangleLegs(wind, boatClass, buoyDistance, crew), TriangleOrder())
    else
      TrapezoidLegsSound(wind, boatClass, buoyDistance, crew);
      Plan(TrapezoidLegs(wind, boatClass, buoyDistance, crew), TrapezoidOrder())
  }

  lemma TriangleLegsSound(wind: int, boatClass: string, buoyDistance: int, crew: int)
    ensures WellFormed(Plan(TriangleLegs(wind, boatClass, buoyDistance, crew), TriangleOrder()))
    ensures 0 <= wind <= 360 ==> BearingsInRange(TriangleLegs(wind, boatClass, buoyDistance, crew))
    ensures buoyDistance >= 200 && crew >= 1 ==> DistancesPositive(TriangleLegs(wind, boatClass, buoyDistance, crew))
  {
    TriangleWellFormed(wind, boatClass, buoyDistance, crew);
    StartDistanceBounds(boatClass, crew);
  }

  lemma TriangleWellFormed(wind: int, boatClass: string, buoyDistance: int, crew: int)
    ensures WellFormed(Plan(TriangleLegs(wind, boatClass, buoyDistance, crew), TriangleOrder()))
  {
    var legs := TriangleLegs(wind, boatClass, buoyDistance, crew);
    assert legs[0].name == StartName && legs[1].name == "1" && legs[2].name == "2" && legs[3].name == "3";
    assert Known(legs, 1, StartName) && Known(legs, 2, "1") && Known(legs, 3, "2") && Known(legs, 4, "3");
  }

  lemma TrapezoidLegsSound(wind: int, boatClass: string, buoyDistance: int, crew: int)
    ensures WellFormed(Plan(TrapezoidLegs(wind, boatClass, buoyDistance, crew), TrapezoidOrder()))
    ensures 0 <= wind <= 360 ==> BearingsInRange(TrapezoidLegs(wind, boatClass, buoyDistance, crew))
    ensures buoyDistance >= 200 && crew >= 1 ==> DistancesPositive(TrapezoidLegs(wind, boatClass, buoyDistance, crew))
  {
    TrapezoidWellFormed(wind, boatClass, buoyDistance, crew);
    StartDistanceBounds(boatClass, crew);
  }

  lemma TrapezoidWellFormed(wind: int, boatClass: string, buoyDistance: int, crew: int)
    ensures WellFormed(Plan(TrapezoidLegs(wind, boatClass, buoyDistance, crew), TrapezoidOrder()))
  {
    var legs := TrapezoidLegs(wind, boatClass, buoyDistance, crew);
    assert legs[0].name == StartName && legs[1].name == "1" && legs[2].name == "2";
    assert legs[3].name == "4" && legs[4].name == "3";
    assert Known(legs, 1, StartName) && Known(legs, 2, "1") && Known(legs, 4, "4");
    assert Known(legs, 5, "2") && Known(legs, 5, "3");
  }

  /** The four offset calls of the triangle: start line, buoy 1 upwind of the
      start-line midpoint, then buoys 2 and 3 at 1.5 times the buoy distance. */
  function TriangleLegs(wind: int, boatClass: string, buoyDistance: int, crew: int): seq<Leg>
  {
    var d := buoyDistance as real;
    [Leg(StartName, AtMark(RcName), StartDistance(boatClass, crew), KRem(wind - 90 + 360, 360)),
     Leg("1", MidpointOf(RcName, StartName), d, wind),
     Leg("2", AtMark("1"), d * 1.5, KRem(wind - 120 + 360, 360)),
     Leg("3", AtMark("2"), d * 1.5, KRem(wind + 120, 360))]
  }

  /** The five offset calls of the trapezoid: start line and buoy 1 as in the
      triangle, then buoy 2 and buoy 4 from buoy 1, and buoy 3 from buoy 4. */
  function TrapezoidLegs(wind: int, boatClass: string, buoyDistance: int, crew: int): seq<Leg>
  {
    var d := buoyDistance as real;
    [Leg(StartName, AtMark(RcName), StartDistance(boatClass, crew), KRem(wind - 90 + 360, 360)),
     Leg("1", MidpointOf(RcName, StartName), d, wind),
     Leg("2", AtMark("1"), d / 1.4, KRem(wind - 105 + 360, 360)),
     Leg("4", AtMark("1"), d * 1.5, KRem(wind + 180, 360)),
     Leg("3", AtMark("4"), d / 1.4, KRem(wind - 75 + 360, 360))]
  }

  /** The position read for a mark that no earlier leg placed. A well-formed
      plan never reads it. */
  const Unplaced: Coord := Coord(0.0, 0.0)

  /** The position of mark `name` among the marks placed so far, or
      `Unplaced` if it has not been placed. */
  function Lookup(placed: map<string, Coord>, name: string): Coord
  {
    if name in placed then placed[name] else Unplaced
  }

  /** The plain arithmetic mean of two positions (not a geodesic midpoint). */
  function Midpoint(a: Coord, b: Coord): Coord
  {
    Coord((a.lat + b.lat) / 2.0, (a.lng + b.lng) / 2.0)
  }

  function StartOf(placed: map<string, Coord>, o: Origin): Coord
  {
    match o
    case AtMark(m) => Lookup(placed, m)
    case MidpointOf(a, b) => Midpoint(Lookup(placed, a), Lookup(placed, b))
  }

  /** Runs the legs in order, each from the marks placed so far. */
  function RunLegs(offset: OffsetFn, placed: map<string, Coord>, legs: seq<Leg>): map<string, Coord>
    decreases |legs|
  {
    if |legs| == 0 then placed
    else
      var l := legs[0];
      RunLegs(offset, placed[l.name := offset(StartOf(placed, l.from), l.distance, l.bearing as real)], legs[1..])
  }

  /** The marks of a plan: RC at the committee position, the legs run in
      order, then the marks listed in the plan's order. */
  function Realize(offset: OffsetFn, rc: Coord, p: Plan): (r: seq<RegattaPoint>)
    ensures Names(r) == p.order
  {
    var placed := RunLegs(offset, map[RcName := rc], p.legs);
    seq(|p.order|, k requires 0 <= k < |p.order| => PointAt(p.order[k], Lookup(placed, p.order[k])))
  }

  /** The course points the create-room handler writes, computed step by
      step as the handler does: committee position `rc`, start-line bearing
      and length, RC/Start midpoint, buoy 1 on the wind bearing, then the
      triangle or trapezoid buoys. */
  function GenerateCourse(offset: OffsetFn, wind: int, boatClass: string, courseType: string,
                          buoyDistance: int, crew: int, rc: Coord): (points: seq<RegattaPoint>)
    ensures Names(points) == if courseType == Triangle then TriangleOrder() else TrapezoidOrder()
    ensures points[0] == PointAt(RcName, rc)
  {
    var bearingToStart := KRem(wind - 90 + 360, 360);
    var startDistance := StartDistance(boatClass, crew);
    var start := offset(rc, startDistance, bearingToStart as real);
    var mid := Midpoint(rc, start);
    var d := buoyDistance as real;
    var buoy1 := offset(mid, d, wind as real);
    var buoy2 := offset(buoy1, d * 1.5, KRem(wind - 120 + 360, 360) as real);
    var buoy3 := offset(buoy2, d * 1.5, KRem(wind + 120, 360) as real);
    if courseType == Triangle then
      [PointAt(RcName, rc), PointAt(StartName, start), PointAt("1", buoy1),
       PointAt("2", buoy2), PointAt("3", buoy3)]
    else
      var side := d / 1.4;
      var trap2 := offset(buoy1, side, KRem(wind - 105 + 360, 360) as real);
      var trap4 := offset(buoy1, d * 1.5, KRem(wind + 180, 360) as real);
      var trap3 := offset(trap4, side, KRem(wind - 75 + 360, 360) as real);
      [PointAt(RcName, rc), PointAt(StartName, start), PointAt("1", buoy1),
       PointAt("2", trap2), PointAt("3", trap3), PointAt("4", trap4)]
  }

  /** The listed marks, when each listed position is the one placed under its name. */
  lemma RealizeLists(offset: OffsetFn, rc: Coord, p: Plan, placed: map<string, Coord>, listed: seq<RegattaPoint>)
    requires RunLegs(offset, map[RcName := rc], p.legs) == placed
    requires Names(listed) == p.order
    requires forall k :: 0 <= k < |listed| ==> Lookup(placed, listed[k].name) == listed[k].Position()
    ensures Realize(offset, rc, p) == listed
  {
  }

  lemma TriangleFollowsPlan(offset: OffsetFn, wind: int, boatClass: string,
                            buoyDistance: int, crew: int, rc: Coord)
    ensures GenerateCourse(offset, wind, boatClass, Triangle, buoyDistance, crew, rc)
         == Realize(offset, rc, Plan(TriangleLegs(wind, boatClass, buoyDistance, crew), TriangleOrder()))
  {
    var legs := TriangleLegs(wind, boatClass, buoyDistance, crew);
    var d := buoyDistance as real;
    var start := offset(rc, StartDistance(boatClass, crew), KRem(wind - 90 + 360, 360) as real);
    var b1 := offset(Midpoint(rc, start), d, wind as real);
    var b2 := offset(b1, d * 1.5, KRem(wind - 120 + 360, 360) as real);
    var b3 := offset(b2, d * 1.5, KRem(wind + 120, 360) as real);
    var m0 := map[RcName := rc];
    var m1 := m0[StartName := start];
    var m2 := m1["1" := b1];
    var m3 := m2["2" := b2];
    var placed := m3["3" := b3];
    assert RunLegs(offset, m0, legs) == RunLegs(offset, m1, legs[1..]);
    assert RunLegs(offset, m1, legs[1..]) == RunLegs(offset, m2, legs[2..]);
    assert RunLegs(offset, m2, legs[2..]) == RunLegs(offset, m3, legs[3..]);
    assert RunLegs(offset, m3, legs[3..]) == RunLegs(offset, placed, legs[4..]);
    var listed := [PointAt(RcName, rc), PointAt(StartName, start), PointAt("1", b1), PointAt("2", b2), PointAt("3", b3)];
    assert GenerateCourse(offset, wind, boatClass, Triangle, buoyDistance, crew, rc) == listed;
    assert Lookup(placed, RcName) == rc && Lookup(placed, StartName) == start && Lookup(placed, "1") == b1;
    assert Lookup(placed, "2") == b2 && Lookup(placed, "3") == b3;
    RealizeLists(offset, rc, Plan(legs, TriangleOrder()), placed, listed);
  }

  lemma TrapezoidRun(offset: OffsetFn, wind: int, boatClass: string, buoyDistance: int, crew: int,
                     rc: Coord, start: Coord, b1: Coord, t2: Coord, t4: Coord, t3: Coord)
    requires start == offset(rc, StartDistance(boatClass, crew), KRem(wind - 90 + 360, 360) as real)
    requires b1 == offset(Midpoint(rc, start), buoyDistance as real, wind as real)
    requires t2 == offset(b1, buoyDistance as real / 1.4, KRem(wind - 105 + 360, 360) as real)
    requires t4 == offset(b1, buoyDistance as real * 1.5, KRem(wind + 180, 360) as real)
    requires t3 == offset(t4, buoyDistance as real / 1.4, KRem(wind - 75 + 360, 360) as real)
    ensures RunLegs(offset, map[RcName := rc], TrapezoidLegs(wind, boatClass, buoyDistance, crew))
         == map[RcName := rc][StartName := start]["1" := b1]["2" := t2]["4" := t4]["3" := t3]
  {
    var legs := TrapezoidLegs(wind, boatClass, buoyDistance, crew);
    var m0 := map[RcName := rc];
    var m1 := m0[StartName := start];
    var m2 := m1["1" := b1];
    var m3 := m2["2" := t2];
    var m4 := m3["4" := t4];
    var placed := m4["3" := t3];
    assert RunLegs(offset, m0, legs) == RunLegs(offset, m1, legs[1..]);
    assert RunLegs(offset, m1, legs[1..]) == RunLegs(offset, m2, legs[2..]);
    assert RunLegs(offset, m2, legs[2..]) == RunLegs(offset, m3, legs[3..]);
    assert RunLegs(offset, m3, legs[3..]) == RunLegs(offset, m4, legs[4..]);
    assert RunLegs(offset, m4, legs[4..]) == RunLegs(offset, placed, legs[5..]);
  }

  lemma TrapezoidFollowsPlan(offset: OffsetFn, wind: int, boatClass: string, courseType: string,
                             buoyDistance: int, crew: int, rc: Coord)
    requires courseType != Triangle
    ensures GenerateCourse(offset, wind, boatClass, courseType, buoyDistance, crew, rc)
         == Realize(offset, rc, Plan(TrapezoidLegs(wind, boatClass, buoyDistance, crew), TrapezoidOrder()))
  {
    var legs := TrapezoidLegs(wind, boatClass, buoyDistance, crew);
    var d := buoyDistance as real;
    var start := offset(rc, StartDistance(boatClass, crew), KRem(wind - 90 + 360, 360) as real);
    var b1 := offset(Midpoint(rc, start), d, wind as real);
    var t2 := offset(b1, d / 1.4, KRem(wind - 105 + 360, 360) as real);
    var t4 := offset(b1, d * 1.5, KRem(wind + 180, 360) as real);
    var t3 := offset(t4, d / 1.4, KRem(wind - 75 + 360, 360) as real);
    TrapezoidRun(offset, wind, boatClass, buoyDistance, crew, rc, start, b1, t2, t4, t3);
    var placed := map[RcName := rc][StartName := start]["1" := b1]["2" := t2]["4" := t4]["3" := t3];
    var listed := [PointAt(RcName, rc), PointAt(StartName, start), PointAt("1", b1), PointAt("2", t2), PointAt("3", t3), PointAt("4", t4)];
    TrapezoidListed(offset, wind, boatClass, courseType, buoyDistance, crew, rc, start, b1, t2, t4, t3);
    TrapezoidLookups(placed, rc, start, b1, t2, t4, t3);
    RealizeLists(offset, rc, Plan(legs, TrapezoidOrder()), placed, listed);
  }

  /** The handler's trapezoid branch lists RC, Start and buoys 1, 2, 3, 4
      at the positions of the five offset calls. */
  lemma TrapezoidListed(offset: OffsetFn, wind: int, boatClass: string, courseType: string,
                        buoyDistance: int, crew: int, rc: Coord,
                        start: Coord, b1: Coord, t2: Coord, t4: Coord, t3: Coord)
    requires courseType != Triangle
    requires start == offset(rc, StartDistance(boatClass, crew), KRem(wind - 90 + 360, 360) as real)
    requires b1 == offset(Midpoint(rc, start), buoyDistance as real, wind as real)
    requires t2 == offset(b1, buoyDistance as real / 1.4, KRem(wind - 105 + 360, 360) as real)
    requires t4 == offset(b1, buoyDistance as real * 1.5, KRem(wind + 180, 360) as real)
    requires t3 == offset(t4, buoyDistance as real / 1.4, KRem(wind - 75 + 360, 360) as real)
    ensures GenerateCourse(offset, wind, boatClass, courseType, buoyDistance, crew, rc)
         == [PointAt(RcName, rc), PointAt(StartName, start), PointAt("1", b1),
             PointAt("2", t2), PointAt("3", t3), PointAt("4", t4)]
  {
  }

  /** Each trapezoid mark is found under its own name in the placed marks. */
  lemma TrapezoidLookups(placed: map<string, Coord>, rc: Coord, start: Coord, b1: Coord, t2: Coord, t4: Coord, t3: Coord)
    requires placed == map[RcName := rc][StartName := start]["1" := b1]["2" := t2]["4" := t4]["3" := t3]
    ensures Lookup(placed, RcName) == rc && Lookup(placed, StartName) == start && Lookup(placed, "1") == b1
    ensures Lookup(placed, "2") == t2 && Lookup(placed, "3") == t3 && Lookup(placed, "4") == t4
  {
  }

  /** The handler's step-by-step computation places exactly the marks of the
      declarative layout: each mark comes from the offset call the layout
      names, from the mark (or RC/Start midpoint) the layout names. */
  lemma GenerateCourseFollowsPlan(offset: OffsetFn, wind: int, boatClass: string, courseType: string,
                                  buoyDistance: int, crew: int, rc: Coord)
    ensures GenerateCourse(offset, wind, boatClass, courseType, buoyDistance, crew, rc)
         == Realize(offset, rc, CoursePlan(wind, boatClass, courseType, buoyDistance, crew))
  {
    if courseType == Triangle {
      TriangleFollowsPlan(offset, wind, boatClass, buoyDistance, crew, rc);
    } else {
      TrapezoidFollowsPlan(offset, wind, boatClass, courseType, buoyDistance, crew, rc);
    }
  }
}

=== FILE: create_screen.dfy ===
/** The create-room button handler: validate the form, require a location
    permission, create the room at the device location (or (0,0)), and only
    when an id came back generate the course and write its points to that
    room. */
module CreateScreen {
  import opened RegattaData
  import opened FormInput
  import opened Course
  import opened Repository

  /** A write of course points to a room. */
  datatype PointsWrite = PointsWrite(roomId: string, points: seq<RegattaPoint>)

  /** What pressing the button did: nothing, or a create request followed,
      when an id came back, by a course-points write. */
  datatype SubmitOutcome =
    | Ignored
    | Requested(request: CreateRequest, write: Option<PointsWrite>)

  /** The committee (RC) position: the device location, or (0,0) without one. */
  function CommitteePosition(location: Option<Coord>): (c: Coord)
    ensures location.Some? ==> c == location.value
    ensures location.None? ==> c == FallbackPosition
  {
    match location
    case Some(l) => l
    case None => FallbackPosition
  }

  /** The handler. `permitted` is whether a location permission is granted,
      `locationFails` whether the last-location task fails (its `await`
      throws and the coroutine ends), `location` the last known device
      location, and `created` the id that `createRoom` returned. */
  function Submit(offset: OffsetFn, form: Form, permitted: bool, locationFails: bool, location: Option<Coord>,
                  created: Option<string>): (o: SubmitOutcome)
    ensures o.Requested? <==> Validate(form).Some? && permitted && !locationFails
    ensures o.Requested? ==>
      var v := Validate(form).value;
      var rc := CommitteePosition(location);
      && o.request == CreateRequest(form.name, v.wind, form.boatClass, form.courseType,
                                    v.buoyDistance, v.crew, rc.lat, rc.lng)
    ensures o.Requested? ==> (o.write.Some? <==> created.Some?)
    ensures o.Requested? && o.write.Some? ==>
      && o.write.value.roomId == created.value
      && Names(o.write.value.points)
         == (if form.courseType == Triangle then TriangleOrder() else TrapezoidOrder())
      && o.write.value.points[0] == PointAt(RcName, Coord(o.request.startLat, o.request.startLng))
  {
    match Validate(form)
    case None => Ignored
    case Some(v) =>
      if !permitted || locationFails then Ignored
      else
        var rc := CommitteePosition(location);
        var request := CreateRequest(form.name, v.wind, form.boatClass, form.courseType,
                                     v.buoyDistance, v.crew, rc.lat, rc.lng);
        match created
        case None => Requested(request, None)
        case Some(id) =>
          var points := GenerateCourse(offset, v.wind, form.boatClass, form.courseType,
                                       v.buoyDistance, v.crew, rc);
          Requested(request, Some(PointsWrite(id, points)))
  }

  /** Whatever the offset computes, the points written after a valid
      submission follow the course layout for the validated numbers, every
      offset in that layout runs on a bearing in range and over a positive
      distance, and the RC mark sits where the room's start location says. */
  lemma SubmittedCourseIsSound(offset: OffsetFn, form: Form, permitted: bool, locationFails: bool, location: Option<Coord>,
                               created: Option<string>)
    requires Submit(offset, form, permitted, locationFails, location, created).Requested?
    requires Submit(offset, form, permitted, locationFails, location, created).write.Some?
    ensures
      var v := Validate(form).value;
      var plan := CoursePlan(v.wind, form.boatClass, form.courseType, v.buoyDistance, v.crew);
      && Submit(offset, form, permitted, locationFails, location, created).write.value.points
         == Realize(offset, CommitteePosition(location), plan)
      && BearingsInRange(plan.legs)
      && DistancesPositive(plan.legs)
  {
    var v := Validate(form).value;
    GenerateCourseFollowsPlan(offset, v.wind, form.boatClass, form.courseType, v.buoyDistance, v.crew,
                              CommitteePosition(location));
  }

  /** The room the request creates stores the RC position as its start
      location, so the RC course point and the room agree. */
  lemma StartLocationMatchesRc(offset: OffsetFn, form: Form, permitted: bool, locationFails: bool, location: Option<Coord>,
                               created: Option<string>, uid: string, now: int, add: AddOutcome)
    requires Submit(offset, form, permitted, locationFails, location, created).Requested?
    ensures
      var o := Submit(offset, form, permitted, locationFails, location, created);
      CreateRoom(Some(uid), o.request, now, add).attempted.value.startLocation
        == Some(CommitteePosition(location))
  {
  }
}

=== FILE: data.dfy ===
/** The records the application stores and passes around: the course point,
    the room document and the room-with-id pair shown in the room list. */
module RegattaData {

  /** The conventional Some/None datatype, standing in for Kotlin's nullable types. */
  datatype Option<+T> = None | Some(value: T)

  /** A latitude/longitude pair in degrees. Doubles are modelled as reals. */
  datatype Coord = Coord(lat: real, lng: real)

  /** The Android fallback position used when no device location is known. */
  const FallbackPosition: Coord := Coord(0.0, 0.0)

  /** A named course mark; the name decides the icon and identifies the mark on updates. */
  datatype RegattaPoint = RegattaPoint(name: string, latitude: real, longitude: real)
  {
    function Position(): Coord { Coord(latitude, longitude) }
  }

  /** The room document. `createdAt` is the creation timestamp in integer
      milliseconds; `startLocation` is the optional geo point. */
  datatype RegattaRoom = RegattaRoom(
    name: string,
    createdBy: string,
    windDirection: int,
    boatClass: string,
    courseType: string,
    firstBuoyDistance: int,
    crewCount: int,
    startLocation: Option<Coord>,
    coursePoints: seq<RegattaPoint>,
    users: seq<string>,
    createdAt: int)

  /** A room together with the id of the document it was read from. */
  datatype RoomWithId = RoomWithId(id: string, room: RegattaRoom)

  /** The point a mark would be stored as. */
  function PointAt(name: string, c: Coord): (p: RegattaPoint)
    ensures p.name == name && p.Position() == c
  {
    RegattaPoint(name, c.lat, c.lng)
  }

  /** The names of a point list, in order. */
  function Names(ps: seq<RegattaPoint>): (r: seq<string>)
    ensures |r| == |ps|
    ensures forall i :: 0 <= i < |ps| ==> r[i] == ps[i].name
  {
    seq(|ps|, i requires 0 <= i < |ps| => ps[i].name)
  }
}

=== FILE: form_input.dfy ===
/** The create-room form: the digit-only filter on the three numeric text
    fields, Kotlin's `String.toIntOrNull` and `isBlank`, and the validation
    guard that runs before anything is created. */
module FormInput {
  import opened RegattaData

  predicate IsDigit(c: char) { '0' <= c <= '9' }

  predicate AllDigits(s: string) { forall i :: 0 <= i < |s| ==> IsDigit(s[i]) }

  /** The `onValueChange` handler of a numeric field: `edit` becomes the new
      field text only when every character is a digit, otherwise the field
      keeps `current`. */
  function FilterEdit(current: string, edit: string): (r: string)
    ensures AllDigits(edit) ==> r == edit
    ensures (exists i :: 0 <= i < |edit| && !IsDigit(edit[i])) ==> r == current
  {
    if AllDigits(edit) then edit else current
  }

  /** The field text after the user proposed `edits` one after another. */
  function FieldAfter(current: string, edits: seq<string>): string
    decreases |edits|
  {
    if |edits| == 0 then current else FieldAfter(FilterEdit(current, edits[0]), edits[1..])
  }

  /** A numeric field starts out empty and, whatever is typed or pasted into
      it, only ever holds digits. */
  lemma {:induction false} FieldStaysDigits(current: string, edits: seq<string>)
    requires AllDigits(current)
    ensures AllDigits(FieldAfter(current, edits))
    decreases |edits|
  {
    if |edits| > 0 {
      FieldStaysDigits(FilterEdit(current, edits[0]), edits[1..]);
    }
  }

  const IntMax: int := 2147483647
  const IntMin: int := -2147483648

  function DigitValue(c: char): nat
    requires IsDigit(c)
  {
    c as int - '0' as int
  }

  /** The value of a string of decimal digits, most significant first. */
  function DigitsValue(s: string): nat
    requires AllDigits(s)
  {
    if |s| == 0 then 0 else DigitsValue(s[..|s| - 1]) * 10 + DigitValue(s[|s| - 1])
  }

  /** Kotlin's `toIntOrNull` (radix 10): an optional `+` or `-` followed by at
      least one digit, and a value that fits a 32-bit `Int`; anything else is
      null. */
  function ToIntOrNull(s: string): (r: Option<int>)
    ensures r.Some? ==> IntMin <= r.value <= IntMax
    ensures r.Some? ==> |s| > 0
    ensures |s| > 0 && AllDigits(s) ==>
      (r.Some? <==> DigitsValue(s) <= IntMax) && (r.Some? ==> r.value == DigitsValue(s))
  {
    if |s| == 0 then None
    else if s[0] == '-' || s[0] == '+' then
      var digits := s[1..];
      if |digits| == 0 || !AllDigits(digits) then None
      else if s[0] == '-' then
        var magnitude: int := DigitsValue(digits);
        (if magnitude <= -IntMin then Some(-magnitude) else None)
      else
        (if DigitsValue(digits) <= IntMax then Some(DigitsValue(digits)) else None)
    else if AllDigits(s) && DigitsValue(s) <= IntMax then Some(DigitsValue(s))
    else None
  }

  /** The shortest decimal spelling of `n`. */
  function DecimalString(n: nat): (s: string)
    ensures |s| > 0 && AllDigits(s)
  {
    if n < 10 then [('0' as int + n) as char]
    else DecimalString(n / 10) + [('0' as int + n % 10) as char]
  }

  lemma {:induction false} DecimalStringValue(n: nat)
    ensures DigitsValue(DecimalString(n)) == n
  {
    if n >= 10 {
      DecimalStringValue(n / 10);
      var s := DecimalString(n);
      assert s[..|s| - 1] == DecimalString(n / 10);
    }
  }

  /** Typing the decimal digits of any non-negative `Int` and parsing the
      field gives that number back. */
  lemma ParseDecimalRoundTrip(n: nat)
    requires n <= IntMax
    ensures ToIntOrNull(DecimalString(n)) == Some(n)
  {
    DecimalStringValue(n);
  }

  /** Kotlin's `Char.isWhitespace`: the JVM's `Character.isWhitespace` or
      `Character.isSpaceChar`. */
  predicate IsWhitespace(c: char)
  {
    || '\U{9}' <= c <= '\U{D}'
    || '\U{1C}' <= c <= '\U{1F}'
    || c == '\U{20}' || c == '\U{A0}' || c == '\U{1680}'
    || '\U{2000}' <= c <= '\U{200A}'
    || c == '\U{2028}' || c == '\U{2029}' || c == '\U{202F}' || c == '\U{205F}' || c == '\U{3000}'
  }

  /** `isBlank`: empty or whitespace only. */
  predicate IsBlank(s: string)
  {
    forall i :: 0 <= i < |s| ==> IsWhitespace(s[i])
  }

  /** The state of the create-room form when the button is pressed. */
  datatype Form = Form(
    name: string,
    windDirection: string,
    boatClass: string,
    courseType: string,
    firstBuoyDistance: string,
    crewCount: string)

  /** The three numbers that passed the guard. */
  datatype ValidNumbers = ValidNumbers(wind: int, buoyDistance: int, crew: int)

  predicate InRanges(v: ValidNumbers)
  {
    0 <= v.wind <= 360 && 200 <= v.buoyDistance <= 5000 && v.crew >= 1
  }

  /** The guard in front of room creation: the name is not blank, all three
      numbers parse, and wind, distance and crew are in their ranges. */
  function Validate(f: Form): (r: Option<ValidNumbers>)
    ensures r.Some? ==> !IsBlank(f.name) && InRanges(r.value)
    ensures r.Some? ==>
      && ToIntOrNull(f.windDirection) == Some(r.value.wind)
      && ToIntOrNull(f.firstBuoyDistance) == Some(r.value.buoyDistance)
      && ToIntOrNull(f.crewCount) == Some(r.value.crew)
    ensures r.None? ==>
      || IsBlank(f.name)
      || ToIntOrNull(f.windDirection).None?
      || ToIntOrNull(f.firstBuoyDistance).None?
      || ToIntOrNull(f.crewCount).None?
      || !InRanges(ValidNumbers(ToIntOrNull(f.windDirection).value,
                                ToIntOrNull(f.firstBuoyDistance).value,
                                ToIntOrNull(f.crewCount).value))
  {
    var crew := ToIntOrNull(f.crewCount);
    var wind := ToIntOrNull(f.windDirection);
    var dist := ToIntOrNull(f.firstBuoyDistance);
    if IsBlank(f.name) || wind.None? || dist.None? || crew.None? then None
    else
      var v := ValidNumbers(wind.value, dist.value, crew.value);
      if !(0 <= v.wind <= 360) || !(200 <= v.buoyDistance <= 5000) || v.crew < 1 then None
      else Some(v)
  }
}

=== FILE: home.dfy ===
/** The home screen's room list: the rooms in display order and the route
    each room's join button opens. */
module HomeList {
  import opened RegattaData
  import opened StableSort

  /** The display key: the room's name exactly as stored, case included. */
  function RawName(r: RoomWithId): string
  {
    r.room.name
  }

  /** `rooms.sortedBy { it.room.name }`: the same rooms, ordered by raw name,
      rooms with equal names keeping their relative order. */
  function DisplayOrder(rooms: seq<RoomWithId>): (r: seq<RoomWithId>)
    ensures multiset(r) == multiset(rooms)
    ensures SortedBy(r, RawName)
    ensures forall k :: WithKey(r, RawName, k) == WithKey(rooms, RawName, k)
  {
    SortByStableAll(rooms, RawName);
    SortBy(rooms, RawName)
  }

  const RoutePrefix: string := "map/"

  /** The navigation route of a room's join button. */
  function Route(r: RoomWithId): (route: string)
    ensures |route| == |RoutePrefix| + |r.id|
  {
    RoutePrefix + r.id
  }

  /** The route starts with the map prefix and the rest of it is the room id,
      so the map screen receives exactly the id of the room tapped. */
  lemma RouteCarriesId(r: RoomWithId)
    ensures Route(r)[..|RoutePrefix|] == RoutePrefix
    ensures Route(r)[|RoutePrefix|..] == r.id
  {
  }

  /** Different room ids give different routes. */
  lemma {:induction false} RouteInjective(a: RoomWithId, b: RoomWithId)
    requires Route(a) == Route(b)
    ensures a.id == b.id
  {
    RouteCarriesId(a);
    RouteCarriesId(b);
  }
}

=== FILE: map_markers.dfy ===
/** The marker rules of the map screen: the icon for each mark name, the
    rebuild of the overlays and of the name-keyed marker map, the points the
    Update button sends, the creator-only gate and the icon size floor. */
module MapMarkers {
  import opened RegattaData

  /** The drawables a course mark can be shown with. */
  datatype Icon = RcIcon | StartBuoyIcon | Buoy1Icon | Buoy2Icon | Buoy3Icon | Buoy4Icon | BuoyDefaultIcon

  /** The names with a dedicated drawable. */
  const NamedMarks: set<string> := {"RC", "Start", "1", "2", "3", "4"}

  /** The icon `when`: six dedicated drawables, `buoy_default` for every other name. */
  function IconFor(name: string): (i: Icon)
    ensures i == BuoyDefaultIcon <==> name !in NamedMarks
  {
    match name
    case "RC" => RcIcon
    case "Start" => StartBuoyIcon
    case "1" => Buoy1Icon
    case "2" => Buoy2Icon
    case "3" => Buoy3Icon
    case "4" => Buoy4Icon
    case _ => BuoyDefaultIcon
  }

  /** No two of the six named marks share a drawable. */
  lemma NamedIconsDistinct(a: string, b: string)
    requires a in NamedMarks && b in NamedMarks && a != b
    ensures IconFor(a) != IconFor(b)
  {
  }

  /** A map overlay: the user's position marker or a course mark. */
  datatype Marker =
    | UserMarker(position: Coord)
    | MarkMarker(title: string, position: Coord, icon: Icon, draggable: bool)

  /** The marker built for one course point. */
  function MarkerFor(p: RegattaPoint, editable: bool): (m: Marker)
    ensures m.MarkMarker? && m.title == p.name && m.position == p.Position()
    ensures m.icon == IconFor(p.name) && m.draggable == editable
  {
    MarkMarker(p.name, p.Position(), IconFor(p.name), editable)
  }

  /** The marker map after storing the points' markers one after another
      under their names. */
  function MarkerMapOf(points: seq<RegattaPoint>, editable: bool): map<string, Marker>
  {
    if |points| == 0 then map[]
    else
      var last := points[|points| - 1];
      MarkerMapOf(points[..|points| - 1], editable)[last.name := MarkerFor(last, editable)]
  }

  /** The marker map has exactly one key per distinct point name. */
  lemma {:induction false} MarkerMapKeys(points: seq<RegattaPoint>, editable: bool)
    ensures MarkerMapOf(points, editable).Keys == set i | 0 <= i < |points| :: points[i].name
  {
    if |points| > 0 {
      var init := points[..|points| - 1];
      MarkerMapKeys(init, editable);
      assert forall i :: 0 <= i < |init| ==> init[i] == points[i];
    }
  }

  /** Duplicate names collapse: the entry for a name is the marker of the
      last point carrying it. */
  lemma {:induction false} MarkerMapLaterWins(points: seq<RegattaPoint>, editable: bool, j: int)
    requires 0 <= j < |points|
    requires forall k :: j < k < |points| ==> points[k].name != points[j].name
    ensures points[j].name in MarkerMapOf(points, editable)
    ensures MarkerMapOf(points, editable)[points[j].name] == MarkerFor(points[j], editable)
  {
    if j < |points| - 1 {
      var init := points[..|points| - 1];
      assert init[j] == points[j];
      MarkerMapLaterWins(init, editable, j);
    }
  }

  /** What the map shows: its centre, the overlays in drawing order and the
      marker map. */
  datatype MapState = MapState(center: Option<Coord>, overlays: seq<Marker>, markerMap: map<string, Marker>)

  /** The creator-only gate `room?.createdBy == currentUserId`: with Kotlin's
      null-safe equality, no room and no signed-in user also compare equal. */
  predicate CanEdit(room: Option<RegattaRoom>, currentUser: Option<string>)
  {
    (match room case None => None case Some(r) => Some(r.createdBy)) == currentUser
  }

  /** Only the room's creator may drag marks or use Reset/Update; the gate
      also opens when there is neither a room nor a signed-in user. */
  lemma CanEditOnlyCreator(room: Option<RegattaRoom>, currentUser: Option<string>)
    ensures room.Some? ==> (CanEdit(room, currentUser) <==> currentUser == Some(room.value.createdBy))
    ensures room.None? ==> (CanEdit(room, currentUser) <==> currentUser.None?)
  {
  }

  /** The loop over the points: one overlay per point, in order, after the
      user marker, and each marker stored under its point's name. */
  method BuildMarkers(points: seq<RegattaPoint>, userPosition: Coord, editable: bool)
    returns (overlays: seq<Marker>, markerMap: map<string, Marker>)
    ensures |overlays| == |points| + 1
    ensures overlays[0] == UserMarker(userPosition)
    ensures forall i :: 0 <= i < |points| ==> overlays[i + 1] == MarkerFor(points[i], editable)
    ensures markerMap == MarkerMapOf(points, editable)
  {
    overlays := [UserMarker(userPosition)];
    markerMap := map[];
    var i := 0;
    while i < |points|
      invariant 0 <= i <= |points|
      invariant |overlays| == i + 1
      invariant overlays[0] == UserMarker(userPosition)
      invariant forall k :: 0 <= k < i ==> overlays[k + 1] == MarkerFor(points[k], editable)
      invariant markerMap == MarkerMapOf(points[..i], editable)
    {
      var marker := MarkerFor(points[i], editable);
      overlays := overlays + [marker];
      assert points[..i + 1][..i] == points[..i];
      markerMap := markerMap[points[i].name := marker];
      i := i + 1;
    }
    assert points[..i] == points;
  }

  /** The redraw effect: skipped, leaving the map as it was, when the map
      view, the location or the room is missing; otherwise the overlays and
      the marker map are cleared and rebuilt from the room's course points. */
  method Redraw(prev: MapState, mapReady: bool, location: Option<Coord>, room: Option<RegattaRoom>,
                currentUser: Option<string>)
    returns (next: MapState)
    ensures !mapReady || location.None? || room.None? ==> next == prev
    ensures mapReady && location.Some? && room.Some? ==>
      var points := room.value.coursePoints;
      && next.center == location
      && |next.overlays| == |points| + 1
      && next.overlays[0] == UserMarker(location.value)
      && (forall i :: 0 <= i < |points| ==> next.overlays[i + 1] == MarkerFor(points[i], CanEdit(room, currentUser)))
      && next.markerMap.Keys == (set i | 0 <= i < |points| :: points[i].name)
      && next.markerMap == MarkerMapOf(points, CanEdit(room, currentUser))
  {
    if !mapReady || location.None? || room.None? {
      return prev;
    }
    var points := room.value.coursePoints;
    var editable := CanEdit(room, currentUser);
    var overlays, markerMap := BuildMarkers(points, location.value, editable);
    MarkerMapKeys(points, editable);
    next := MapState(location, overlays, markerMap);
  }

  /** The position a mark marker stands at. */
  function PointOfEntry(name: string, m: Marker): RegattaPoint
  {
    PointAt(name, m.position)
  }

  /** The Update button's payload: one point per marker-map entry, named
      after its key, at that marker's position. The map's iteration order is
      not fixed, so any order is allowed. */
  method UpdatePayload(markerMap: map<string, Marker>) returns (points: seq<RegattaPoint>)
    ensures |points| == |markerMap|
    ensures forall i :: 0 <= i < |points| ==>
      points[i].name in markerMap && points[i] == PointOfEntry(points[i].name, markerMap[points[i].name])
    ensures forall i, j :: 0 <= i < j < |points| ==> points[i].name != points[j].name
    ensures forall name :: name in markerMap ==> exists i :: 0 <= i < |points| && points[i].name == name
  {
    points := [];
    var remaining := markerMap.Keys;
    while remaining != {}
      invariant remaining <= markerMap.Keys
      invariant |points| + |remaining| == |markerMap|
      invariant forall i :: 0 <= i < |points| ==>
        points[i].name in markerMap && points[i].name !in remaining
        && points[i] == PointOfEntry(points[i].name, markerMap[points[i].name])
      invariant forall i, j :: 0 <= i < j < |points| ==> points[i].name != points[j].name
      invariant forall name :: name in markerMap && name !in remaining ==>
        exists i :: 0 <= i < |points| && points[i].name == name
      decreases |remaining|
    {
      var name :| name in remaining;
      var before := points;
      points := points + [PointOfEntry(name, markerMap[name])];
      remaining := remaining - {name};
      forall other | other in markerMap && other !in remaining
        ensures exists i :: 0 <= i < |points| && points[i].name == other
      {
        if other == name {
          assert points[|before|].name == other;
        } else {
          var i :| 0 <= i < |before| && before[i].name == other;
          assert points[i].name == other;
        }
      }
    }
  }

  /** The Update button, shown only when `CanEdit` holds: pressing it sends
      the marker map's payload, and without the button nothing is sent. */
  method PressUpdate(room: Option<RegattaRoom>, currentUser: Option<string>, markerMap: map<string, Marker>)
    returns (sent: Option<seq<RegattaPoint>>)
    ensures sent.Some? <==> CanEdit(room, currentUser)
    ensures sent.Some? ==>
      var points := sent.value;
      && |points| == |markerMap|
      && (forall i :: 0 <= i < |points| ==>
            points[i].name in markerMap && points[i] == PointOfEntry(points[i].name, markerMap[points[i].name]))
      && (forall i, j :: 0 <= i < j < |points| ==> points[i].name != points[j].name)
      && (forall name :: name in markerMap ==> exists i :: 0 <= i < |points| && points[i].name == name)
  {
    if !CanEdit(room, currentUser) {
      return None;
    }
    var points := UpdatePayload(markerMap);
    sent := Some(points);
  }

  /** After a redraw, Update sends one point per distinct course-point name. */
  lemma PayloadCoversNames(points: seq<RegattaPoint>, editable: bool, payload: seq<RegattaPoint>)
    requires forall i :: 0 <= i < |payload| ==> payload[i].name in MarkerMapOf(points, editable)
    requires forall name :: name in MarkerMapOf(points, editable) ==>
      exists i :: 0 <= i < |payload| && payload[i].name == name
    ensures (set i | 0 <= i < |payload| :: payload[i].name) == (set i | 0 <= i < |points| :: points[i].name)
  {
    MarkerMapKeys(points, editable);
  }

  /** `coerceAtLeast(1)` on the scaled icon side in pixels. */
  function IconSide(pixels: int): (side: int)
    ensures side >= 1
    ensures side == pixels || side == 1
    ensures pixels >= 1 ==> side == pixels
  {
    if pixels < 1 then 1 else pixels
  }
}

=== FILE: repository.dfy ===
/** The room repository: building a new room document, the join
    transaction's users-list update, tolerant parsing of the course points in
    a snapshot, moving one named course point, and the sorted room list.

    The document store and the signed-in user are not modelled; what they
    return (the current uid, whether a write went through, the fields of a
    snapshot, what the object mapper decoded) is passed in as a parameter. */
module Repository {
  import opened RegattaData
  import opened StringOrder
  import opened StableSort

  /** A field value as the document store hands it back untyped. */
  datatype Dyn =
    | DNull
    | DBool(b: bool)
    | DLong(i: int)
    | DDouble(d: real)
    | DString(s: string)
    | DList(items: seq<Dyn>)
    | DMap(entries: map<string, Dyn>)

  type Fields = map<string, Dyn>

  function Field(data: Fields, key: string): Dyn
  {
    if key in data then data[key] else DNull
  }

  // ---------------------------------------------------------------- create

  /** The arguments of `createRoom`. */
  datatype CreateRequest = CreateRequest(
    regattaName: string,
    windDirection: int,
    boatClass: string,
    courseType: string,
    firstBuoyDistance: int,
    crewCount: int,
    startLat: real,
    startLng: real)

  /** What the store did with the `add` of the new room document. */
  datatype AddOutcome = Added(docId: string) | AddFailed

  /** The room document `createRoom` tries to add (`attempted`) and the id it
      returns (`id`). */
  datatype CreateResult = CreateResult(id: Option<string>, attempted: Option<RegattaRoom>)

  /** `createRoom`: no signed-in user means no document and a null id;
      otherwise the new document records the creator as its only user, no
      course points yet and the request's parameters verbatim. A failed add
      also yields a null id. `now` is the creation time in milliseconds. */
  function CreateRoom(uid: Option<string>, req: CreateRequest, now: int, add: AddOutcome): (r: CreateResult)
    ensures uid.None? ==> r.id.None? && r.attempted.None?
    ensures r.id.Some? <==> uid.Some? && add.Added?
    ensures r.id.Some? ==> r.id.value == add.docId
    ensures uid.Some? ==> r.attempted.Some?
    ensures r.attempted.Some? ==>
      var room := r.attempted.value;
      && room.users == [uid.value]
      && room.createdBy == uid.value
      && room.coursePoints == []
      && room.name == req.regattaName
      && room.windDirection == req.windDirection
      && room.boatClass == req.boatClass
      && room.courseType == req.courseType
      && room.firstBuoyDistance == req.firstBuoyDistance
      && room.crewCount == req.crewCount
      && room.startLocation == Some(Coord(req.startLat, req.startLng))
      && room.createdAt == now
  {
    match uid
    case None => CreateResult(None, None)
    case Some(u) =>
      var room := RegattaRoom(req.regattaName, u, req.windDirection, req.boatClass, req.courseType,
                              req.firstBuoyDistance, req.crewCount, Some(Coord(req.startLat, req.startLng)),
                              [], [u], now);
      match add
      case Added(id) => CreateResult(Some(id), Some(room))
      case AddFailed => CreateResult(None, Some(room))
  }

  // ------------------------------------------------------------------ join

  /** `(value as? List<*>)?.filterIsInstance<String>() ?: emptyList()`. */
  function StringsOf(v: Dyn): (r: seq<string>)
    ensures v.DList? ==> |r| <= |v.items|
    ensures v.DList? ==> forall x :: x in r <==> DString(x) in v.items
    ensures v.DList? ==> r == StringItems(v.items)
    ensures !v.DList? ==> r == []
  {
    match v
    case DList(items) => StringItems(items)
    case _ => []
  }

  /** `filterIsInstance<String>`: the string entries of a list, in order. */
  function StringItems(items: seq<Dyn>): (r: seq<string>)
    ensures |r| <= |items|
    ensures forall x :: x in r ==> DString(x) in items
    ensures forall x :: DString(x) in items ==> x in r
  {
    if |items| == 0 then []
    else
      assert forall d :: d in items ==> d == items[0] || d in items[1..];
      (match items[0] case DString(x) => [x] case _ => []) + StringItems(items[1..])
  }

  /** Filtering is element-wise and keeps order: filtering a concatenation
      concatenates the filtered parts. */
  lemma {:induction false} StringItemsAppend(a: seq<Dyn>, b: seq<Dyn>)
    ensures StringItems(a + b) == StringItems(a) + StringItems(b)
  {
    if |a| == 0 {
      assert a + b == b;
    } else {
      assert (a + b)[1..] == a[1..] + b;
      StringItemsAppend(a[1..], b);
    }
  }

  /** A single entry survives the filter iff it is a string. */
  lemma StringItemsSingle(d: Dyn)
    ensures d.DString? ==> StringItems([d]) == [d.s]
    ensures !d.DString? ==> StringItems([d]) == []
  {
    assert [d][1..] == [];
  }

  /** How a list of user ids is written back. */
  function StringsValue(users: seq<string>): (v: Dyn)
    ensures v.DList? && |v.items| == |users|
  {
    DList(seq(|users|, i requires 0 <= i < |users| => DString(users[i])))
  }

  lemma {:induction false} StringItemsOfStrings(users: seq<string>)
    ensures StringItems(seq(|users|, i requires 0 <= i < |users| => DString(users[i]))) == users
  {
    if |users| > 0 {
      var items := seq(|users|, i requires 0 <= i < |users| => DString(users[i]));
      assert items[1..] == seq(|users[1..]|, i requires 0 <= i < |users[1..]| => DString(users[1..][i]));
      StringItemsOfStrings(users[1..]);
      assert users == [users[0]] + users[1..];
    }
  }

  /** Writing a users list and reading it back gives the same list. */
  lemma UsersRoundTrip(users: seq<string>)
    ensures StringsOf(StringsValue(users)) == users
  {
    StringItemsOfStrings(users);
  }

  /** The outcome of the join transaction: whether `joinRoom` reported
      success, and the users list it wrote (if it wrote one). */
  datatype JoinResult = JoinResult(success: bool, usersWrite: Option<seq<string>>)

  /** The users list the join transaction reads from the document. */
  function CurrentUsers(doc: Option<Fields>): seq<string>
  {
    match doc
    case None => []
    case Some(d) => StringsOf(Field(d, "users"))
  }

  /** `joinRoom`: with no signed-in user nothing is read or written and the
      result is false. Otherwise the transaction reads the users list and, if
      the uid is absent, writes the old string entries followed by the uid.
      Updating a document that does not exist fails the transaction, and so
      does a failed commit (`commits` false); then nothing is written and the
      result is false. */
  function JoinRoom(uid: Option<string>, doc: Option<Fields>, commits: bool): (r: JoinResult)
    ensures uid.None? ==> !r.success && r.usersWrite.None?
    ensures doc.None? ==> !r.success && r.usersWrite.None?
    ensures r.success ==> uid.Some? && commits
    ensures r.usersWrite.Some? ==>
      && uid.Some? && doc.Some? && uid.value !in CurrentUsers(doc)
      && r.usersWrite.value == CurrentUsers(doc) + [uid.value]
      && r.success
    ensures uid.Some? && uid.value in CurrentUsers(doc) ==> r.usersWrite.None? && r.success == commits
    ensures uid.Some? && doc.Some? && commits && uid.value !in CurrentUsers(doc) ==> r.usersWrite.Some?
  {
    match uid
    case None => JoinResult(false, None)
    case Some(u) =>
      var current := CurrentUsers(doc);
      if u in current then JoinResult(commits, None)
      else if doc.None? || !commits then JoinResult(false, None)
      else JoinResult(true, Some(current + [u]))
  }

  /** Joining is idempotent: once a join has written the users list, joining
      again with the same uid writes nothing and only reports the commit. */
  lemma JoinTwiceWritesOnce(uid: string, doc: Fields, commits: bool, commitsAgain: bool)
    requires JoinRoom(Some(uid), Some(doc), commits).usersWrite.Some?
    ensures
      var written := JoinRoom(Some(uid), Some(doc), commits).usersWrite.value;
      var doc' := doc["users" := StringsValue(written)];
      JoinRoom(Some(uid), Some(doc'), commitsAgain) == JoinResult(commitsAgain, None)
  {
    var written := JoinRoom(Some(uid), Some(doc), commits).usersWrite.value;
    UsersRoundTrip(written);
    assert uid in written;
  }

  // ----------------------------------------------------- snapshot parsing

  /** `value as? String ?: ""`. */
  function StringOr(v: Dyn, default: string): string
  {
    match v
    case DString(s) => s
    case _ => default
  }

  /** `(value as? Number)?.toDouble() ?: 0.0`; the store's numbers are longs or doubles. */
  function NumberOrZero(v: Dyn): real
  {
    match v
    case DLong(i) => i as real
    case DDouble(d) => d
    case _ => 0.0
  }

  /** One map element of the `coursePoints` list as a point, with defaults
      for missing or mistyped fields. */
  function ParsePoint(entries: map<string, Dyn>): (p: RegattaPoint)
    ensures ("name" !in entries || !entries["name"].DString?) ==> p.name == ""
    ensures "name" in entries && entries["name"].DString? ==> p.name == entries["name"].s
    ensures ("latitude" !in entries || !(entries["latitude"].DLong? || entries["latitude"].DDouble?)) ==> p.latitude == 0.0
    ensures "latitude" in entries && entries["latitude"].DLong? ==> p.latitude == entries["latitude"].i as real
    ensures "latitude" in entries && entries["latitude"].DDouble? ==> p.latitude == entries["latitude"].d
    ensures ("longitude" !in entries || !(entries["longitude"].DLong? || entries["longitude"].DDouble?)) ==> p.longitude == 0.0
    ensures "longitude" in entries && entries["longitude"].DLong? ==> p.longitude == entries["longitude"].i as real
    ensures "longitude" in entries && entries["longitude"].DDouble? ==> p.longitude == entries["longitude"].d
  {
    RegattaPoint(StringOr(Field(entries, "name"), ""),
                 NumberOrZero(Field(entries, "latitude")),
                 NumberOrZero(Field(entries, "longitude")))
  }

  /** `mapNotNull` over the list: map elements become points, everything else is dropped. */
  function ParsePoints(items: seq<Dyn>): (r: seq<RegattaPoint>)
    ensures |r| <= |items|
  {
    if |items| == 0 then []
    else (match items[0] case DMap(e) => [ParsePoint(e)] case _ => []) + ParsePoints(items[1..])
  }

  /** The course points of a snapshot: an absent or non-list field gives the empty list. */
  function CoursePointsOf(data: Fields): (r: seq<RegattaPoint>)
    ensures !Field(data, "coursePoints").DList? ==> r == []
    ensures Field(data, "coursePoints").DList? ==> r == ParsePoints(Field(data, "coursePoints").items)
  {
    match Field(data, "coursePoints")
    case DList(items) => ParsePoints(items)
    case _ => []
  }

  /** Parsing a list is parsing its parts: the order of map elements is kept. */
  lemma {:induction false} ParsePointsAppend(a: seq<Dyn>, b: seq<Dyn>)
    ensures ParsePoints(a + b) == ParsePoints(a) + ParsePoints(b)
  {
    if |a| == 0 {
      assert a + b == b;
    } else {
      assert (a + b)[1..] == a[1..] + b;
      ParsePointsAppend(a[1..], b);
    }
  }

  /** One element: a map becomes exactly its parsed point, with the field
      defaults; anything else is dropped. */
  lemma ParsePointsSingle(d: Dyn)
    ensures d.DMap? ==> ParsePoints([d]) == [ParsePoint(d.entries)]
    ensures !d.DMap? ==> ParsePoints([d]) == []
  {
    assert [d][1..] == [];
  }

  /** Elements that are not maps contribute nothing. */
  lemma ParsePointsDropsNonMaps(items: seq<Dyn>)
    requires forall i :: 0 <= i < |items| ==> !items[i].DMap?
    ensures ParsePoints(items) == []
  {
    if |items| > 0 {
      ParsePointsDropsNonMaps(items[1..]);
    }
  }

  /** How a course point is stored in the document. */
  function PointValue(p: RegattaPoint): Dyn
  {
    DMap(map["name" := DString(p.name), "latitude" := DDouble(p.latitude), "longitude" := DDouble(p.longitude)])
  }

  function PointsValue(ps: seq<RegattaPoint>): (v: Dyn)
    ensures v.DList? && |v.items| == |ps|
  {
    DList(seq(|ps|, i requires 0 <= i < |ps| => PointValue(ps[i])))
  }

  /** Storing a list of course points and parsing the snapshot gives the same
      points back, in the same order. */
  lemma {:induction false} CoursePointsRoundTrip(ps: seq<RegattaPoint>, data: Fields)
    requires Field(data, "coursePoints") == PointsValue(ps)
    ensures CoursePointsOf(data) == ps
  {
    PointsParseBack(ps);
  }

  lemma {:induction false} PointsParseBack(ps: seq<RegattaPoint>)
    ensures ParsePoints(PointsValue(ps).items) == ps
  {
    if |ps| > 0 {
      var items := PointsValue(ps).items;
      assert items[1..] == PointsValue(ps[1..]).items;
      PointsParseBack(ps[1..]);
      assert ps == [ps[0]] + ps[1..];
    }
  }

  /** What the snapshot listener receives. */
  datatype Snapshot =
    | ListenFailed
    | Missing
    | Present(data: Option<Fields>, decoded: Option<RegattaRoom>)

  /** The snapshot listener of `observeRoom`: a listen error, a missing
      document, absent data or a document the object mapper cannot decode all
      report null; otherwise the decoded room with its course points replaced
      by the tolerant parse of the raw data. */
  function OnSnapshot(s: Snapshot): (r: Option<RegattaRoom>)
    ensures r.Some? <==> s.Present? && s.data.Some? && s.decoded.Some?
    ensures r.Some? ==>
      r.value == s.decoded.value.(coursePoints := CoursePointsOf(s.data.value))
  {
    match s
    case Present(Some(data), Some(room)) => Some(room.(coursePoints := CoursePointsOf(data)))
    case _ => None
  }

  // --------------------------------------------------------- move a point

  /** `coursePoints.map { if (it.name == pointName) it.copy(lat, lng) else it }`. */
  function MovePoint(points: seq<RegattaPoint>, pointName: string, lat: real, lng: real): (r: seq<RegattaPoint>)
    ensures |r| == |points|
    ensures forall i :: 0 <= i < |r| ==> r[i].name == points[i].name
    ensures forall i :: 0 <= i < |r| && points[i].name == pointName ==> r[i].latitude == lat && r[i].longitude == lng
    ensures forall i :: 0 <= i < |r| && points[i].name != pointName ==> r[i] == points[i]
  {
    seq(|points|, i requires 0 <= i < |points| =>
      if points[i].name == pointName then points[i].(latitude := lat, longitude := lng) else points[i])
  }

  /** With no point of that name the list is unchanged. */
  lemma MovePointNoMatch(points: seq<RegattaPoint>, pointName: string, lat: real, lng: real)
    requires forall i :: 0 <= i < |points| ==> points[i].name != pointName
    ensures MovePoint(points, pointName, lat, lng) == points
  {
  }

  /** Moving the same point to the same place twice is moving it once. */
  lemma MovePointIdempotent(points: seq<RegattaPoint>, pointName: string, lat: real, lng: real)
    ensures MovePoint(MovePoint(points, pointName, lat, lng), pointName, lat, lng)
         == MovePoint(points, pointName, lat, lng)
  {
  }

  /** `updateCoursePoint`: when the room cannot be read nothing is written;
      otherwise the whole list is written back with the named points moved. */
  function UpdateCoursePoint(room: Option<RegattaRoom>, pointName: string, lat: real, lng: real): (write: Option<seq<RegattaPoint>>)
    ensures room.None? <==> write.None?
    ensures write.Some? ==> write.value == MovePoint(room.value.coursePoints, pointName, lat, lng)
  {
    match room
    case None => None
    case Some(r) => Some(MovePoint(r.coursePoints, pointName, lat, lng))
  }

  // ------------------------------------------------------------- room list

  /** A fetched document: its id and what the object mapper made of it. */
  datatype FetchedDoc = FetchedDoc(id: string, decoded: Option<RegattaRoom>)

  /** `mapNotNull`: the documents that decoded, paired with their ids, in order. */
  function DecodedRooms(docs: seq<FetchedDoc>): (r: seq<RoomWithId>)
    ensures |r| <= |docs|
    ensures forall x :: x in r ==> FetchedDoc(x.id, Some(x.room)) in docs
    ensures forall d :: d in docs && d.decoded.Some? ==> RoomWithId(d.id, d.decoded.value) in r
  {
    if |docs| == 0 then []
    else
      var rest := DecodedRooms(docs[1..]);
      assert forall d :: d in docs[1..] ==> d in docs;
      assert forall d :: d in docs ==> d == docs[0] || d in docs[1..];
      match docs[0].decoded
      case Some(room) => [RoomWithId(docs[0].id, room)] + rest
      case None => rest
  }

  /** `mapNotNull` is element-wise and keeps order: the decoded rooms of a
      concatenation are the decoded rooms of its parts, concatenated. */
  lemma {:induction false} DecodedRoomsAppend(a: seq<FetchedDoc>, b: seq<FetchedDoc>)
    ensures DecodedRooms(a + b) == DecodedRooms(a) + DecodedRooms(b)
  {
    if |a| == 0 {
      assert a + b == b;
    } else {
      assert (a + b)[1..] == a[1..] + b;
      DecodedRoomsAppend(a[1..], b);
    }
  }

  /** A single document contributes its room, under its id, iff it decoded. */
  lemma DecodedRoomsSingle(d: FetchedDoc)
    ensures d.decoded.Some? ==> DecodedRooms([d]) == [RoomWithId(d.id, d.decoded.value)]
    ensures d.decoded.None? ==> DecodedRooms([d]) == []
  {
    assert [d][1..] == [];
  }

  /** The sort key of `getAllRooms`: the lower-cased room name. */
  function LowerName(r: RoomWithId): string
  {
    Lowercase(r.room.name)
  }

  /** `getAllRooms`: the decodable rooms, sorted stably by lower-cased name. */
  function GetAllRooms(docs: seq<FetchedDoc>): (r: seq<RoomWithId>)
    ensures multiset(r) == multiset(DecodedRooms(docs))
    ensures SortedBy(r, LowerName)
    ensures forall k :: WithKey(r, LowerName, k) == WithKey(DecodedRooms(docs), LowerName, k)
  {
    SortByStableAll(DecodedRooms(docs), LowerName);
    SortBy(DecodedRooms(docs), LowerName)
  }
}

=== FILE: room_view_model.dfy ===
/** The room view model: how `roomId`, `currentRoom`, `allRooms` and the set
    of observed rooms change in response to what the repository returns.
    Repository results arrive as inputs, so every outcome is covered. */
module RoomViewModel {
  import opened RegattaData

  /** The view model's state. `observed` lists, in order, the room ids for
      which a room observer was registered. */
  datatype State = State(
    currentRoom: Option<RegattaRoom>,
    roomId: Option<string>,
    allRooms: seq<RoomWithId>,
    observed: seq<string>)

  /** The state of a new view model: nothing loaded, nothing observed. */
  const Initial: State := State(None, None, [], [])

  /** Starts observing room `id`. */
  function Observe(s: State, id: string): State
  {
    s.(observed := s.observed + [id])
  }

  /** `createRoom` after the repository returned `created`: the room id is
      set to it even when it is null, and observation starts only for a
      non-null id. */
  function AfterCreate(s: State, created: Option<string>): (t: State)
    ensures t.roomId == created
    ensures created.None? ==> t.observed == s.observed
    ensures created.Some? ==> t.observed == s.observed + [created.value]
    ensures t.currentRoom == s.currentRoom && t.allRooms == s.allRooms
  {
    var t := s.(roomId := created);
    match created
    case Some(id) => Observe(t, id)
    case None => t
  }

  /** `joinRoom(id)` after the repository reported `success`: only a
      successful join sets the room id and starts observing. */
  function AfterJoin(s: State, id: string, success: bool): (t: State)
    ensures success ==> t.roomId == Some(id) && t.observed == s.observed + [id]
    ensures !success ==> t == s
    ensures t.currentRoom == s.currentRoom && t.allRooms == s.allRooms
  {
    if success then Observe(s.(roomId := Some(id)), id) else s
  }

  /** `deleteCurrentRoom`: the room the repository is asked to delete (if
      any) and the returned flag. */
  datatype DeleteCall = DeleteCall(deleted: Option<string>, result: bool)

  function DeleteCurrentRoom(s: State, repositoryResult: bool): (c: DeleteCall)
    ensures s.roomId.None? ==> c == DeleteCall(None, false)
    ensures s.roomId.Some? ==> c.deleted == s.roomId && c.result == repositoryResult
  {
    match s.roomId
    case None => DeleteCall(None, false)
    case Some(id) => DeleteCall(Some(id), repositoryResult)
  }

  /** `loadAllRooms`: `loaded` is the repository's list, or None when the
      call threw; a failure leaves the list as it was. */
  function AfterLoad(s: State, loaded: Option<seq<RoomWithId>>): (t: State)
    ensures loaded.None? ==> t == s
    ensures loaded.Some? ==> t.allRooms == loaded.value
    ensures t.currentRoom == s.currentRoom && t.roomId == s.roomId && t.observed == s.observed
  {
    match loaded
    case Some(rooms) => s.(allRooms := rooms)
    case None => s
  }

  /** The observer callback: null snapshots are ignored. */
  function AfterObserved(s: State, room: Option<RegattaRoom>): (t: State)
    ensures room.None? ==> t == s
    ensures room.Some? ==> t.currentRoom == room
    ensures t.roomId == s.roomId && t.allRooms == s.allRooms && t.observed == s.observed
  {
    match room
    case Some(r) => s.(currentRoom := Some(r))
    case None => s
  }

  /** The readiness test of `waitForCoursePoints`: a room that exists and
      has at least one course point. */
  predicate Ready(room: Option<RegattaRoom>)
  {
    room.Some? && |room.value.coursePoints| > 0
  }

  /** Something that happens to the view model. */
  datatype Event =
    | Created(created: Option<string>)
    | Joined(id: string, success: bool)
    | Loaded(loaded: Option<seq<RoomWithId>>)
    | ObservedRoom(room: Option<RegattaRoom>)

  function Step(s: State, e: Event): State
  {
    match e
    case Created(c) => AfterCreate(s, c)
    case Joined(id, ok) => AfterJoin(s, id, ok)
    case Loaded(l) => AfterLoad(s, l)
    case ObservedRoom(r) => AfterObserved(s, r)
  }

  /** The state after the events, oldest first. */
  function Run(s: State, events: seq<Event>): State
    decreases |events|
  {
    if |events| == 0 then s else Run(Step(s, events[0]), events[1..])
  }

  lemma {:induction false} RunSnoc(s: State, events: seq<Event>, e: Event)
    ensures Run(s, events + [e]) == Step(Run(s, events), e)
    decreases |events|
  {
    if |events| > 0 {
      assert (events + [e])[1..] == events[1..] + [e];
      RunSnoc(Step(s, events[0]), events[1..], e);
    }
  }

  /** The last non-null room the observer delivered, or `current` if none. */
  function LastObserved(events: seq<Event>, current: Option<RegattaRoom>): Option<RegattaRoom>
  {
    if |events| == 0 then current
    else
      var e := events[|events| - 1];
      if e.ObservedRoom? && e.room.Some? then e.room
      else LastObserved(events[..|events| - 1], current)
  }

  /** The current room is always the last non-null room observed: null
      snapshots and every other event leave it alone. */
  lemma {:induction false} CurrentRoomIsLastObserved(s: State, events: seq<Event>)
    ensures Run(s, events).currentRoom == LastObserved(events, s.currentRoom)
  {
    if |events| > 0 {
      var init := events[..|events| - 1];
      var e := events[|events| - 1];
      assert events == init + [e];
      RunSnoc(s, init, e);
      CurrentRoomIsLastObserved(s, init);
    }
  }

  /** The list of the last load that succeeded, or `current` if none did. */
  function LastLoaded(events: seq<Event>, current: seq<RoomWithId>): seq<RoomWithId>
  {
    if |events| == 0 then current
    else
      var e := events[|events| - 1];
      if e.Loaded? && e.loaded.Some? then e.loaded.value
      else LastLoaded(events[..|events| - 1], current)
  }

  /** The room list is the result of the last successful load: failed loads
      and every other event leave it alone. */
  lemma {:induction false} AllRoomsIsLastLoaded(s: State, events: seq<Event>)
    ensures Run(s, events).allRooms == LastLoaded(events, s.allRooms)
  {
    if |events| > 0 {
      var init := events[..|events| - 1];
      var e := events[|events| - 1];
      assert events == init + [e];
      RunSnoc(s, init, e);
      AllRoomsIsLastLoaded(s, init);
    }
  }

  /** The event starts observing room `id`. */
  predicate StartsObserving(e: Event, id: string)
  {
    (e.Created? && e.created == Some(id)) || (e.Joined? && e.id == id && e.success)
  }

  /** Rooms are only ever observed after a create that returned their id or
      a successful join of them. */
  lemma {:induction false} ObservedOnlyAfterSuccess(s: State, events: seq<Event>, id: string)
    requires id in Run(s, events).observed
    ensures id in s.observed || exists i :: 0 <= i < |events| && StartsObserving(events[i], id)
  {
    if |events| > 0 {
      var init := events[..|events| - 1];
      var e := events[|events| - 1];
      assert events == init + [e];
      RunSnoc(s, init, e);
      if id in Run(s, init).observed {
        ObservedOnlyAfterSuccess(s, init, id);
        if !(id in s.observed) {
          var i :| 0 <= i < |init| && StartsObserving(init[i], id);
          assert events[i] == init[i];
        }
      } else {
        assert StartsObserving(events[|events| - 1], id);
      }
    }
  }

  /** From the view model's initial state, every observed room was created
      with that id or joined successfully. */
  lemma ObservedFromInitial(events: seq<Event>, id: string)
    requires id in Run(Initial, events).observed
    ensures exists i :: 0 <= i < |events| && StartsObserving(events[i], id)
  {
    ObservedOnlyAfterSuccess(Initial, events, id);
  }

  /** A room just created has no course points and is not ready; once the
      course points are written it is. */
  lemma ReadyOnlyWithPoints(room: RegattaRoom, points: seq<RegattaPoint>)
    requires room.coursePoints == []
    ensures !Ready(Some(room))
    ensures Ready(Some(room.(coursePoints := points))) <==> |points| > 0
    ensures !Ready(None)
  {
  }
}

=== FILE: stable_sort.dfy ===
/** Kotlin's `sortedBy { key }` on a list: a stable sort by a string key.
    It is modelled as an insertion sort that places each element before
    every element whose key is not smaller, so equal keys keep their order. */
module StableSort {
  import opened StringOrder

  /** Non-decreasing by key. */
  ghost predicate SortedBy<T>(s: seq<T>, key: T -> string)
  {
    forall i, j :: 0 <= i < j < |s| ==> LexLe(key(s[i]), key(s[j]))
  }

  /** The elements of `s` whose key is `k`, in their order in `s`. */
  function WithKey<T>(s: seq<T>, key: T -> string, k: string): seq<T>
  {
    if |s| == 0 then []
    else if key(s[0]) == k then [s[0]] + WithKey(s[1..], key, k)
    else WithKey(s[1..], key, k)
  }

  /** Inserts `x` in front of the first element whose key is not smaller than `x`'s. */
  function Insert<T>(x: T, s: seq<T>, key: T -> string): (r: seq<T>)
    ensures multiset(r) == multiset(s) + multiset{x}
    ensures SortedBy(s, key) ==> SortedBy(r, key)
  {
    if |s| == 0 then [x]
    else if LexLe(key(x), key(s[0])) then
      InsertFrontSorted(x, s, key);
      [x] + s
    else
      LexLeTotal(key(x), key(s[0]));
      var rest := Insert(x, s[1..], key);
      assert s == [s[0]] + s[1..];
      InsertBehindSorted(s[0], rest, s[1..], x, key);
      [s[0]] + rest
  }

  lemma InsertFrontSorted<T>(x: T, s: seq<T>, key: T -> string)
    requires |s| > 0 && LexLe(key(x), key(s[0]))
    ensures SortedBy(s, key) ==> SortedBy([x] + s, key)
  {
    if SortedBy(s, key) {
      var r := [x] + s;
      forall i, j | 0 <= i < j < |r|
        ensures LexLe(key(r[i]), key(r[j]))
      {
        if i == 0 {
          if j > 1 {
            LexLeTransitive(key(x), key(s[0]), key(s[j - 1]));
          }
        }
      }
    }
  }

  lemma InsertBehindSorted<T>(y: T, rest: seq<T>, tail: seq<T>, x: T, key: T -> string)
    requires LexLe(key(y), key(x))
    requires multiset(rest) == multiset(tail) + multiset{x}
    requires SortedBy([y] + tail, key) ==> SortedBy(tail, key)
    requires SortedBy(tail, key) ==> SortedBy(rest, key)
    ensures SortedBy([y] + tail, key) ==> SortedBy([y] + rest, key)
  {
    if SortedBy([y] + tail, key) {
      var r := [y] + rest;
      forall i, j | 0 <= i < j < |r|
        ensures LexLe(key(r[i]), key(r[j]))
      {
        if i == 0 {
          var e := rest[j - 1];
          assert e in multiset(rest);
          if e != x {
            assert e in multiset(tail);
            var k :| 0 <= k < |tail| && tail[k] == e;
            assert ([y] + tail)[0] == y && ([y] + tail)[k + 1] == e;
            assert LexLe(key(y), key(e));
          }
        } else {
          assert SortedBy(rest, key);
          assert r[i] == rest[i - 1] && r[j] == rest[j - 1];
        }
      }
    }
  }

  /** The stable sort. */
  function SortBy<T>(s: seq<T>, key: T -> string): (r: seq<T>)
    ensures multiset(r) == multiset(s)
    ensures |r| == |s|
    ensures SortedBy(r, key)
  {
    if |s| == 0 then []
    else
      assert s == [s[0]] + s[1..];
      Insert(s[0], SortBy(s[1..], key), key)
  }

  /** Inserting `x` keeps the relative order of every key class and puts `x`
      ahead of the elements that share its key. */
  lemma {:induction false} InsertWithKey<T>(x: T, s: seq<T>, key: T -> string, k: string)
    requires SortedBy(s, key)
    ensures WithKey(Insert(x, s, key), key, k)
         == (if key(x) == k then [x] + WithKey(s, key, k) else WithKey(s, key, k))
  {
    if |s| == 0 {
    } else if LexLe(key(x), key(s[0])) {
      assert ([x] + s)[1..] == s;
    } else {
      assert SortedBy(s[1..], key);
      InsertWithKey(x, s[1..], key, k);
      var r := Insert(x, s, key);
      assert r == [s[0]] + Insert(x, s[1..], key);
      assert r[1..] == Insert(x, s[1..], key);
      if key(x) == k && key(s[0]) == k {
        LexLeReflexive(k);
      }
    }
  }

  /** Stability: for every key, the elements carrying it appear in the
      sorted list in exactly the order they had in the input. */
  lemma {:induction false} SortByStable<T>(s: seq<T>, key: T -> string, k: string)
    ensures WithKey(SortBy(s, key), key, k) == WithKey(s, key, k)
  {
    if |s| > 0 {
      SortByStable(s[1..], key, k);
      InsertWithKey(s[0], SortBy(s[1..], key), key, k);
    }
  }

  lemma SortByStableAll<T>(s: seq<T>, key: T -> string)
    ensures forall k :: WithKey(SortBy(s, key), key, k) == WithKey(s, key, k)
  {
    forall k
      ensures WithKey(SortBy(s, key), key, k) == WithKey(s, key, k)
    {
      SortByStable(s, key, k);
    }
  }
}

=== FILE: string_order.dfy ===
/** The string comparison Kotlin's `sortedBy` uses on `String` keys
    (lexicographic by character, a proper prefix first), and the
    lower-casing applied before sorting the loaded room list. */
module StringOrder {

  /** `a` sorts no later than `b`. */
  predicate LexLe(a: string, b: string)
    decreases |a|
  {
    |a| == 0 || (|b| > 0 && (a[0] < b[0] || (a[0] == b[0] && LexLe(a[1..], b[1..]))))
  }

  lemma {:induction false} LexLeReflexive(a: string)
    ensures LexLe(a, a)
    decreases |a|
  {
    if |a| > 0 {
      LexLeReflexive(a[1..]);
    }
  }

  lemma {:induction false} LexLeTotal(a: string, b: string)
    ensures LexLe(a, b) || LexLe(b, a)
    decreases |a|
  {
    if |a| > 0 && |b| > 0 && a[0] == b[0] {
      LexLeTotal(a[1..], b[1..]);
    }
  }

  lemma {:induction false} LexLeAntisymmetric(a: string, b: string)
    requires LexLe(a, b) && LexLe(b, a)
    ensures a == b
    decreases |a|
  {
    if |a| > 0 {
      LexLeAntisymmetric(a[1..], b[1..]);
      assert a == [a[0]] + a[1..];
      assert b == [b[0]] + b[1..];
    }
  }

  lemma {:induction false} LexLeTransitive(a: string, b: string, c: string)
    requires LexLe(a, b) && LexLe(b, c)
    ensures LexLe(a, c)
    decreases |a|
  {
    if |a| > 0 && a[0] == b[0] && b[0] == c[0] {
      LexLeTransitive(a[1..], b[1..], c[1..]);
    }
  }

  /** Lower-cases the ASCII letters A-Z and leaves every other character alone. */
  function LowerChar(c: char): (r: char)
  {
    if 'A' <= c <= 'Z' then (c as int + 32) as char else c
  }

  /** `lowercase()` restricted to ASCII: every upper-case ASCII letter
      becomes its lower-case letter (32 code points on), no upper-case ASCII
      letter is left, and every character that is not one is kept. */
  function Lowercase(s: string): (r: string)
    ensures |r| == |s|
    ensures forall i :: 0 <= i < |r| ==> !('A' <= r[i] <= 'Z')
    ensures forall i :: 0 <= i < |s| && !('A' <= s[i] <= 'Z') ==> r[i] == s[i]
    ensures forall i :: 0 <= i < |s| && 'A' <= s[i] <= 'Z' ==> r[i] as int == s[i] as int + 32
  {
    seq(|s|, i requires 0 <= i < |s| => LowerChar(s[i]))
  }
}
